=== FILE: README.md ===
# CPU scheduling simulator, modelled in Dafny

The simulator takes a list of processes. Each process has an id, an arrival time, a burst time and an optional priority. The simulator runs one of six scheduling algorithms on the list and reports the result:

- every process with its start, completion, turnaround and waiting times;
- a Gantt chart of `(process id, start, end)` segments;
- the average waiting time and the average turnaround time;
- the total time.

The six algorithms are:

- First Come First Serve (FCFS);
- non-preemptive Shortest Job First (SJF);
- Shortest Remaining Time First (SRTF);
- Round Robin (RR) with a time quantum;
- non-preemptive priority scheduling;
- preemptive priority scheduling.

For priorities, a lower number is more urgent.

A form in front of the engine edits the process list and validates it before a simulation starts. The page's dispatcher then picks the algorithm by name.

The model is a set of pure functions over immutable values:

| module | file | models |
|---|---|---|
| `Model` | `model.dfy` | processes, finished records, Gantt segments, results, and the sums the proofs count with |
| `Sorting` | `sorting.dfy` | the engine's stable one-key `sort` |
| `Selection` | `selection.dfy` | `filter`, then `sort`, then `[0]`, as SJF, SRTF and both priority algorithms choose the next process |
| `Metrics` | `metrics.dfy` | `calculateMetrics` |
| `Jobs` | `jobs.dfy` | the per-process bookkeeping (`remainingTime`, `startTime`, `completionTime`) of the preemptive algorithms and RR |
| `Fcfs` | `fcfs.dfy` | `fcfs` |
| `NonPreemptive` | `nonpreemptive.dfy` | `sjf` and `priorityNonPreemptive`, one loop with the comparator key as a parameter |
| `Preemptive` | `preemptive.dfy` | `srtf` and `priorityPreemptive`, one unit-step loop with the key as a parameter, and the Gantt chart recorded by the intended rule |
| `PreemptiveAsWritten` | `preemptive_as_written.dfy` | the same loops with the source's `lastProcessId` bookkeeping, where they agree with the corrected loop, and two inputs where they do not |
| `RoundRobin` | `roundrobin.dfy` | `roundRobin` |
| `RoundRobinAsFcfs` | `rr_as_fcfs.dfy` | a quantum that covers every burst turns Round Robin into FCFS |
| `InputForm` | `inputform.dfy` | `addProcess`, `removeProcess`, `updateProcess`, the input handlers and `handleSimulate` |
| `Dispatcher` | `dispatcher.dfy` | the `switch` in `Index.tsx` |

Each loop is a recursive function over a state value, with a termination measure:

- FCFS counts the processes left.
- SJF and non-preemptive priority count the processes left, plus one for an idle jump.
- SRTF and preemptive priority count the remaining work plus the idle units before the last arrival.
- Round Robin counts each unfinished job's remaining work plus one, plus one for an idle jump.

A property about a whole run is proved through an invariant preserved by one step of the loop.

`Accounts(input, r)` in `Model` is the common correctness statement used below. It says:

- every input process is reported exactly once, as a multiset;
- every record is sound: turnaround is completion minus arrival, waiting is turnaround minus burst, the process started no earlier than it arrived, and it completed no earlier than start plus burst;
- every completion is at most `totalTime`;
- the Gantt chart is ordered and non-overlapping;
- the chart's total length equals the sum of the bursts;
- `totalTime` is the end of the last segment, or 0 for an empty chart.

`Traced(fs, tl)` ties the records to the chart. Each record's start is `FirstStart(tl, id)`, the start of its process's first segment, and its completion is `LastEndOf(tl, id)`, the end of its last one. The lemmas `Model.FirstStartIsFirst` and `Model.LastEndOfIsLast` show that these are indeed the first and the last segments carrying the id.

`PositiveBursts` means every burst is at least 1. No property below needs a bound on arrival times: a negative arrival simply counts as having arrived at time 0.

## Model

| member | source | states |
|---|---|---|
| Sorting.SortBy | src/utils/schedulingAlgorithms.ts:18 | the sorted list is a permutation of the input: same multiset, same length; it is in non-decreasing key order |
| Sorting.SortByStable | src/utils/schedulingAlgorithms.ts:160 | the sort is stable: for every key value, the elements with that key keep their input order |
| Selection.Pick | src/utils/schedulingAlgorithms.ts:60-68 | the chosen index holds a candidate; no candidate has a smaller key; every earlier candidate has a strictly larger key, so ties go to list order |
| Selection.PickIsSortHead | src/utils/schedulingAlgorithms.ts:117-118 | the chosen element is exactly `available[0]` after filtering and stably sorting the candidates |
| Metrics.Mean | src/utils/schedulingAlgorithms.ts:10-11 | a mean exists exactly when the count is non-zero; mean times count gives back the total |
| Metrics.CalculateMetrics | src/utils/schedulingAlgorithms.ts:4-13 | the averages exist exactly for a non-empty list; each average times n is the total; over sound records, average waiting is at least 0, and average turnaround minus average waiting, times n, is the total burst |
| Fcfs.Fcfs | src/utils/schedulingAlgorithms.ts:16-49 | the processes are reported in stable arrival order, with one chart segment per process |
| Fcfs.FcfsSteps | src/utils/schedulingAlgorithms.ts:23-39 | each process starts at the later of the previous completion (0 for the first) and its arrival, runs its whole burst, and gets the chart segment `[start, completion)` |
| Fcfs.FcfsAccounts | src/utils/schedulingAlgorithms.ts:16-49 | with positive bursts FCFS satisfies `Accounts` |
| NonPreemptive.MinArrival | src/utils/schedulingAlgorithms.ts:63 | `Math.min` of the arrivals is one of them and at most every one |
| NonPreemptive.JumpAhead | src/utils/schedulingAlgorithms.ts:62-65 | when nobody has arrived, the jump moves the clock strictly forward, to a time at which some process has arrived, and no process arrives earlier |
| NonPreemptive.Loop | src/utils/schedulingAlgorithms.ts:59-85 | the loop terminates with no process left |
| NonPreemptive.DispatchIsSortHead | src/utils/schedulingAlgorithms.ts:60-70 | each step completes exactly one process, the head of the stably sorted arrived processes |
| NonPreemptive.SimulateAccounts | src/utils/schedulingAlgorithms.ts:52-95 | with positive bursts SJF and non-preemptive priority satisfy `Accounts`; they report in completion order, with the i-th chart segment being the i-th process's run |
| NonPreemptive.SimulateGreedy | src/utils/schedulingAlgorithms.ts:67 | if process j ran after process i and had already arrived when i started, then i's key (the burst, or the priority with a missing one counted as 0) is not larger than j's |
| NonPreemptive.SimulateIdle | src/utils/schedulingAlgorithms.ts:231-237 | each process starts no earlier than the CPU was free; if it starts later, no process that ran from then on had arrived before that start |
| Preemptive.Loop | src/utils/schedulingAlgorithms.ts:107-144 | with positive bursts the unit-step loop terminates with every process complete, and its processes unchanged |
| Preemptive.RecordOk | src/utils/schedulingAlgorithms.ts:124-133 | recording a unit keeps the chart ordered, makes it end at the next tick, adds exactly one unit in total, and adds it to the running process only; the chart gains no segment exactly when the last segment is the same process's run up to the current tick, and otherwise gains one; every segment stays a whole contiguous run (`Maximal`: no segment is followed straight on by the same process); every segment before the last is unchanged, and the last keeps its process and start; at every moment each process holds the CPU exactly when it did before, except that the running process now also holds it at the current tick (`RanAt`) |
| Preemptive.RecordSpans | src/utils/schedulingAlgorithms.ts:124-133 | after a unit is recorded for a process, that process's last segment ends at the next tick, and its first segment starts where it did, or at the current tick if it had none; every other process's first start and last end are unchanged |
| Preemptive.TickIsSortHead | src/utils/schedulingAlgorithms.ts:108-141 | a step runs the head of the stably sorted eligible jobs (arrived, work left) for one unit, and no other job changes; the job's `startTime` is set to the clock only if it was unset; its `completionTime` becomes the next tick exactly when this was its last unit, and is otherwise left as it was; the chart records the unit for that job's process at the clock, and the clock advances by one |
| Preemptive.TickIdle | src/utils/schedulingAlgorithms.ts:108-115 | when no arrived job has work left, a step changes no job and no chart segment and only advances the clock by one |
| Preemptive.Simulate | src/utils/schedulingAlgorithms.ts:98-154 | SRTF and preemptive priority report the processes in input order |
| Preemptive.SimulateAccounts | src/utils/schedulingAlgorithms.ts:271-328 | with positive bursts both preemptive algorithms satisfy `Accounts`, and their chart has one segment per contiguous run (`Maximal`) |
| Preemptive.SimulateConserved | src/utils/schedulingAlgorithms.ts:135-143 | with distinct ids, the chart gives every process exactly its burst, however it was split up |
| Preemptive.SimulateTraced | src/utils/schedulingAlgorithms.ts:120-141 | with distinct ids, every reported `startTime` is the start of the process's first chart segment, and every `completionTime` is the end of its last one |
| PreemptiveAsWritten.SimulateAgrees | src/utils/schedulingAlgorithms.ts:105-133 | with distinct, non-empty ids, the source's `lastProcessId` bookkeeping gives exactly the corrected result |
| PreemptiveAsWritten.EmptyIdCrashes | src/utils/schedulingAlgorithms.ts:124-132 | a single process with id `''`, whatever its priority, crashes the run as written; the corrected chart is `[('', 0, 1)]` |
| PreemptiveAsWritten.SharedIdStretches | src/utils/schedulingAlgorithms.ts:298-307 | two processes both named `A`, arriving at 0 and 3 with burst 1, give the chart `[(A, 0, 2)]` with total time 4 as written: one unit is charted over idle time, and the chart does not end at the total time |
| Jobs.ReportAll | src/utils/schedulingAlgorithms.ts:138-142 | the records keep the jobs' processes and order; when each job's bookkeeping is consistent, every record is sound and completes by the clock |
| Jobs.RunCharted | src/utils/schedulingAlgorithms.ts:182-205 | with distinct ids, when a job runs and the chart records its process as running up to the run's end, each job's `startTime` stays the start of its process's first segment, and each set `completionTime` stays the end of its last one |
| RoundRobin.Admit | src/utils/schedulingAlgorithms.ts:170-173 | the admitted jobs are the next ones in sorted order, appended to the queue in order; all of them have arrived by the clock; the first job not admitted has not arrived; nothing else changes |
| RoundRobin.AdmitWf | src/utils/schedulingAlgorithms.ts:175-178 | admission keeps the queue invariant; an empty queue with work left means a job is still to arrive, which is what makes `processes[index]` defined on the jump |
| RoundRobin.DispatchSteps | src/utils/schedulingAlgorithms.ts:180-210 | the front job runs for `min(quantum, remaining)` as one segment from the clock; its `startTime` is set to the clock only if it was unset, and its `completionTime` becomes the segment's end exactly when this turn uses up its remaining time, and is otherwise left as it was; the jobs that arrived by the segment's end join the queue before the front job rejoins it, if it has work left; no other job changes |
| RoundRobin.IterateSteps | src/utils/schedulingAlgorithms.ts:168-178 | a round either jumps the clock to the next arrival, when nothing is queued, or dispatches the front of the queue |
| RoundRobin.Loop | src/utils/schedulingAlgorithms.ts:168-211 | with a quantum of at least 1 the loop terminates with every job complete and the processes unchanged |
| RoundRobin.RoundRobin | src/utils/schedulingAlgorithms.ts:157-221 | Round Robin reports the processes in stable arrival order |
| RoundRobin.RoundRobinAccounts | src/utils/schedulingAlgorithms.ts:157-221 | with positive bursts Round Robin satisfies `Accounts`, and no segment is longer than the quantum |
| RoundRobin.RoundRobinConserved | src/utils/schedulingAlgorithms.ts:186-195 | with distinct ids, the chart gives every process exactly its burst across all its turns |
| RoundRobin.RoundRobinTraced | src/utils/schedulingAlgorithms.ts:182-205 | with distinct ids, every reported `startTime` is the start of the process's first chart segment, and every `completionTime` is the end of its last one, however many turns it took |
| RoundRobinAsFcfs.RoundRobinIsFcfs | src/utils/schedulingAlgorithms.ts:186 | when the quantum is at least every burst, Round Robin returns exactly FCFS's result: processes, chart, averages and total time |
| InputForm.ParseNatToString | src/components/ProcessInputForm.tsx:26 | reading back the printed index gives the number, so generated ids `P<n>` name their position |
| InputForm.AddProcess | src/components/ProcessInputForm.tsx:25-28 | the list grows by one and keeps its prefix; the new process has arrival 0, burst 1, priority 1, and an id `P` followed by the new length |
| InputForm.RemoveProcess | src/components/ProcessInputForm.tsx:30-36 | removal is refused exactly when at most one process is left; otherwise it drops just the element at the index, or leaves the list unchanged if the index is out of range |
| InputForm.UpdateProcess | src/components/ProcessInputForm.tsx:38-42 | only the edited field of the process at the index changes; every other process and field stays as it was |
| InputForm.FieldsBelowOne | src/components/ProcessInputForm.tsx:119-161 | after the handlers' fallbacks for unparsable text and 0, burst, priority and quantum are never 0; they, and the arrival, fall below their minimum only when a negative number was typed |
| InputForm.CheckAll | src/components/ProcessInputForm.tsx:46-59 | the loop passes exactly when every process passes its checks |
| InputForm.HandleSimulateAccepts | src/components/ProcessInputForm.tsx:44-68 | a simulation starts if and only if every burst is positive, every arrival is non-negative, priorities are at least 1 for the priority algorithms, and the quantum is positive for Round Robin; the list goes through unchanged, with a quantum only for Round Robin |
| InputForm.HandleSimulateRejects | src/components/ProcessInputForm.tsx:46-64 | a rejection names the first failing process and the check it failed, in the order burst, arrival, priority; a quantum rejection happens only for Round Robin with a quantum of 0 or less |
| InputForm.AcceptedIsValid | src/components/ProcessInputForm.tsx:44-67 | whatever the form accepts is valid engine input |
| InputForm.AddAfterRemoveRepeatsId | src/components/ProcessInputForm.tsx:25-36 | removing `P1` from the starting list and then adding produces a second `P3`, so the ids are no longer distinct |
| InputForm.AddProcessDistinct | src/components/ProcessInputForm.tsx:25-28 | adding keeps ids distinct exactly when no process already has the new id |
| InputForm.NumberedDistinct | src/components/ProcessInputForm.tsx:25-28 | from any list named `P1` … `Pn` in order, adding keeps that naming, so the ids stay distinct while nothing is removed |
| Dispatcher.EffectiveQuantum | src/pages/Index.tsx:42 | Round Robin never runs with a quantum of 0; it runs with a positive quantum unless the caller passed a negative one; a non-zero quantum is kept |
| Dispatcher.Simulate | src/pages/Index.tsx:31-52 | the selected name picks the simulator. SRTF and preemptive priority report in input order. FCFS, Round Robin and any unknown name, which falls back to FCFS, report in stable arrival order |
| Dispatcher.SimulateAccounts | src/pages/Index.tsx:31-52 | with positive bursts every selectable algorithm satisfies `Accounts`, SRTF and preemptive priority with the corrected chart rule |
| Dispatcher.PageAgrees | src/pages/Index.tsx:31-52 | with distinct, non-empty ids, the page's run, with the source's own chart bookkeeping for SRTF and preemptive priority, returns exactly `Simulate`'s result |
| Dispatcher.FormPassesEmptyId | src/components/ProcessInputForm.tsx:46-67 | the form checks no ids: it passes a single process named `''` to SRTF and to preemptive priority, and the page's run of either throws |
| Dispatcher.FormThenSimulate | src/components/ProcessInputForm.tsx:67 | whatever the form passes on, the selected simulator terminates on it and satisfies `Accounts`; when the ids are distinct and non-empty, that is also the page's result |
| Dispatcher.FormQuantumKept | src/pages/Index.tsx:42 | for a Round Robin run from the form, the fallback to 2 never applies: Round Robin runs with the quantum field's value |

## Left out

- Rendering, toasts, the algorithm selector, the chart, the statistics and the results table are not modelled; they only display values. `handleReset` is not modelled: it restores the starting list, which is `InputForm.Defaults`.
- The `JSON.parse(JSON.stringify(...))` copy and the in-place updates of process objects are value semantics here. Each algorithm builds new records from its input.
- Floating point is not modelled. Averages are exact reals. The `NaN` from dividing by an empty list is `None`. The form never submits an empty list, because `removeProcess` keeps at least one process.
- The `|| 0` in `calculateMetrics` is not modelled. Every reported process has its waiting and turnaround times set, so it never applies.
- `parseInt` is taken as given: the input handlers receive its result as an integer, or `None` for `NaN`. Editing the id takes the typed string.
- Preemptive.Simulate: requires positive bursts, because otherwise the source loops forever. A process with burst 0 or less is never eligible and never completes, and the loop waits for it.
- Preemptive.Srtf: requires positive bursts, for the same reason.
- Preemptive.PriorityPreemptive: requires positive bursts, for the same reason.
- RoundRobin.RoundRobin: requires a quantum of at least 1. With a quantum of 0 or less, the source loops forever as soon as some process's burst exceeds the quantum; when no burst does, every job completes on its first turn. Bursts of 0 or less are allowed: such a job completes in one round.
- Dispatcher.Simulate: requires what the simulators above require. The form guarantees both conditions, as `Dispatcher.FormThenSimulate` shows.
- RoundRobin.RoundRobinAccounts, NonPreemptive.SimulateAccounts, Fcfs.FcfsAccounts: require positive bursts. With a burst of 0 or less, a segment would be empty or end before it starts.
- Dispatcher.SimulateAccounts: holds of `Simulate`, which runs SRTF and preemptive priority with the corrected chart rule. The page's own `srtf` and `priorityPreemptive` agree with it only on distinct, non-empty ids (`Dispatcher.PageAgrees`). On an id `''` they throw, and on a repeated id they can stretch a segment over idle time (see Findings).
- Dispatcher.FormThenSimulate: the `Accounts` half holds of the corrected chart rule. The form checks no ids, so it passes inputs on which the page's SRTF or preemptive priority throws (`Dispatcher.FormPassesEmptyId`) or stretches a segment. The lemma states agreement with the page only for distinct, non-empty ids.
- InputForm.UpdateProcess: requires an index inside the list. The form only calls it for rows it displays.
- The engine does not check that ids are distinct. The per-process lemmas (`SimulateConserved`, `RoundRobinConserved`, `SimulateTraced`, `RoundRobinTraced`) assume distinct ids: with a shared id, the chart cannot tell the processes apart. `InputForm.AddAfterRemoveRepeatsId` shows that the form can produce duplicates.
- Ties in every comparator are broken only by the stable sort, so the earlier process in list order wins. There is no secondary key. The model follows the code.

## Findings

| source | as written | input that shows it | evidently intended | confidence | as-written member | corrected member |
|---|---|---|---|---|---|---|
| src/utils/schedulingAlgorithms.ts:105-132 | `lastProcessId` starts as `''`, and the first unit of a process whose id is `''` takes the extend branch on an empty chart; reading `ganttChart[-1].endTime` throws | one process, id `''`, arrival 0, burst 1 | the first unit always opens a new segment | high; not executed | PreemptiveAsWritten.EmptyIdCrashes | Preemptive.SimulateAccounts |
| src/utils/schedulingAlgorithms.ts:124-133 | a unit extends the last segment whenever the running process has the last id, even after idle time or when another process shares the id; the same code is at lines 298-307 | processes `A` (arrival 0, burst 1) and `A` (arrival 3, burst 1): chart `[(A, 0, 2)]`, total time 4 | extend only the segment that ends at the current time and belongs to the same process | high; not executed | PreemptiveAsWritten.SharedIdStretches | Preemptive.RecordOk |

=== FILE: dispatcher.dfy ===
/** The `switch` in `handleSimulate` of src/pages/Index.tsx: the selected
    algorithm's name picks the simulator; Round Robin runs with
    `timeQuantum || 2`, and an unknown name falls back to FCFS. */
module Dispatcher {
  import opened Wrappers
  import opened Model
  import opened Sorting
  import F = Fcfs
  import NP = NonPreemptive
  import P = Preemptive
  import RR = RoundRobin
  import PA = PreemptiveAsWritten
  import Form = InputForm

  /** `timeQuantum || 2`: an absent quantum, or 0, means 2. Round Robin
      never runs with a quantum of 0, runs with a positive one unless the
      caller passed a negative one, and a non-zero quantum is kept. */
  function EffectiveQuantum(quantum: Option<int>): (q: int)
    ensures q != 0
    ensures q >= 1 <==> quantum.None? || quantum.value >= 0
    ensures quantum.Some? && quantum.value != 0 ==> q == quantum.value
  {
    match quantum
    case None => 2
    case Some(v) => if v == 0 then 2 else v
  }

  /** What the simulators need to finish: the preemptive ones a positive
      burst for every process, Round Robin a positive quantum. */
  predicate Runs(algorithm: string, ps: seq<Process>, quantum: Option<int>) {
    && (algorithm == "SRTF" || algorithm == "Priority-Preemptive" ==> PositiveBursts(ps))
    && (algorithm == "RR" ==> EffectiveQuantum(quantum) >= 1)
  }

  /** The simulation the page runs; each algorithm reports its processes
      in its own order: FCFS and Round Robin (and the fallback) in stable
      arrival order, SRTF and Priority-P in input order, SJF and
      Priority-NP in the order they completed. */
  function Simulate(algorithm: string, ps: seq<Process>, quantum: Option<int>): (r: Schedule)
    requires Runs(algorithm, ps, quantum)
    ensures algorithm == "SRTF" || algorithm == "Priority-Preemptive" ==> Procs(r.processes) == ps
    ensures algorithm !in {"SJF", "SRTF", "Priority-NonPreemptive", "Priority-Preemptive"} ==>
      Procs(r.processes) == SortBy(ps, Arrival)
  {
    if algorithm == "FCFS" then F.Fcfs(ps)
    else if algorithm == "SJF" then NP.Sjf(ps)
    else if algorithm == "SRTF" then P.Srtf(ps)
    else if algorithm == "RR" then RR.RoundRobin(ps, EffectiveQuantum(quantum))
    else if algorithm == "Priority-NonPreemptive" then NP.PriorityNonPreemptive(ps)
    else if algorithm == "Priority-Preemptive" then P.PriorityPreemptive(ps)
    else F.Fcfs(ps)
  }

  /** The simulation as the page runs it: SRTF and Priority-P with the
      source's own `lastProcessId` bookkeeping, which throws on an empty
      id; every other algorithm as `Simulate`. */
  function PageSimulate(algorithm: string, ps: seq<Process>, quantum: Option<int>): Result<Schedule, PA.Crash>
    requires Runs(algorithm, ps, quantum)
  {
    if algorithm == "SRTF" then PA.SimulateAsWritten(P.ShortestRemaining, ps)
    else if algorithm == "Priority-Preemptive" then PA.SimulateAsWritten(P.HighestPriority, ps)
    else Ok(Simulate(algorithm, ps, quantum))
  }

  /** With distinct, non-empty ids the page computes exactly `Simulate`. */
  lemma PageAgrees(algorithm: string, ps: seq<Process>, quantum: Option<int>)
    requires Runs(algorithm, ps, quantum) && DistinctIds(ps) && PA.NamedIds(ps)
    ensures PageSimulate(algorithm, ps, quantum) == Ok(Simulate(algorithm, ps, quantum))
  {
    if algorithm == "SRTF" {
      PA.SimulateAgrees(P.ShortestRemaining, ps);
    } else if algorithm == "Priority-Preemptive" {
      PA.SimulateAgrees(P.HighestPriority, ps);
    }
  }

  /** The form checks no ids: it lets a process named '' through to both
      preemptive algorithms, and the page's run of either throws. */
  lemma FormPassesEmptyId()
    ensures var ps := [Process("", 0, 1, Some(1))];
      && Form.HandleSimulate(ps, "SRTF", 2).Ok?
      && Form.HandleSimulate(ps, "Priority-Preemptive", 2).Ok?
      && PageSimulate("SRTF", ps, None).Err?
      && PageSimulate("Priority-Preemptive", ps, None).Err?
  {
    EmptyIdAccepted("SRTF");
    EmptyIdAccepted("Priority-Preemptive");
    PA.EmptyIdCrashes(P.ShortestRemaining, Some(1));
    PA.EmptyIdCrashes(P.HighestPriority, Some(1));
  }

  lemma EmptyIdAccepted(algorithm: string)
    ensures Form.HandleSimulate([Process("", 0, 1, Some(1))], algorithm, 2).Ok?
  {
    var ps := [Process("", 0, 1, Some(1))];
    assert Form.Check(ps[0], Form.NeedsPriority(algorithm)).None?;
    assert Form.CheckAll(ps[1..], Form.NeedsPriority(algorithm)).None?;
  }

  /** On valid input every algorithm reports each process once and soundly,
      with an ordered timeline that holds exactly the CPU time needed. */
  lemma SimulateAccounts(algorithm: string, ps: seq<Process>, quantum: Option<int>)
    requires PositiveBursts(ps) && Runs(algorithm, ps, quantum)
    ensures Accounts(ps, Simulate(algorithm, ps, quantum))
  {
    var r := Simulate(algorithm, ps, quantum);
    if algorithm == "SJF" {
      assert r == NP.Simulate(NP.ShortestJob, ps);
      NP.SimulateAccounts(NP.ShortestJob, ps);
    } else if algorithm == "SRTF" {
      assert r == P.Simulate(P.ShortestRemaining, ps);
      P.SimulateAccounts(P.ShortestRemaining, ps);
    } else if algorithm == "RR" {
      assert r == RR.RoundRobin(ps, EffectiveQuantum(quantum));
      RR.RoundRobinAccounts(ps, EffectiveQuantum(quantum));
    } else if algorithm == "Priority-NonPreemptive" {
      assert r == NP.Simulate(NP.HighestPriority, ps);
      NP.SimulateAccounts(NP.HighestPriority, ps);
    } else if algorithm == "Priority-Preemptive" {
      assert r == P.Simulate(P.HighestPriority, ps);
      P.SimulateAccounts(P.HighestPriority, ps);
    } else {
      assert r == F.Fcfs(ps);
      F.FcfsAccounts(ps);
    }
  }

  /** The form and the page together: whatever the form lets through, the
      selected simulator runs to completion on, and its result accounts for
      every process; when the ids are distinct and non-empty, that is also
      what the page computes. */
  lemma FormThenSimulate(ps: seq<Process>, algorithm: string, quantum: int)
    requires Form.HandleSimulate(ps, algorithm, quantum).Ok?
    ensures var call := Form.HandleSimulate(ps, algorithm, quantum).value;
      && Runs(algorithm, call.processes, call.quantum)
      && Accounts(ps, Simulate(algorithm, call.processes, call.quantum))
      && (DistinctIds(ps) && PA.NamedIds(ps) ==>
            PageSimulate(algorithm, call.processes, call.quantum) == Ok(Simulate(algorithm, call.processes, call.quantum)))
  {
    Form.HandleSimulateAccepts(ps, algorithm, quantum);
    Form.AcceptedIsValid(ps, algorithm, quantum);
    var call := Form.HandleSimulate(ps, algorithm, quantum).value;
    SimulateAccounts(algorithm, ps, call.quantum);
    if DistinctIds(ps) && PA.NamedIds(ps) {
      PageAgrees(algorithm, ps, call.quantum);
    }
  }

  /** The quantum field never holds 0, so for a Round Robin run the form
      lets through, the page's fallback to 2 never applies: the quantum the
      user sees is the one Round Robin runs with. */
  lemma FormQuantumKept(ps: seq<Process>, parsed: Option<int>)
    requires Form.HandleSimulate(ps, "RR", Form.QuantumField(parsed)).Ok?
    ensures var q := EffectiveQuantum(Form.HandleSimulate(ps, "RR", Form.QuantumField(parsed)).value.quantum);
      && q == Form.QuantumField(parsed) >= 1
      && (parsed.Some? && parsed.value != 0 ==> q == parsed.value)
  {
    Form.FieldsBelowOne(parsed);
    Form.HandleSimulateAccepts(ps, "RR", Form.QuantumField(parsed));
  }
}

=== FILE: fcfs.dfy ===
/** First Come First Serve (`fcfs`, src/utils/schedulingAlgorithms.ts):
    stable sort by arrival, then run each process to completion in that
    order, jumping an idle clock forward to its arrival. */
module Fcfs {
  import opened Model
  import opened Sorting
  import opened Metrics

  function Max(a: int, b: int): int { if a < b then b else a }

  /** One pass of the `forEach`: run `p` to completion as one segment. */
  function Step(p: Process, t: Trace): Trace {
    var start := if t.clock < p.arrival then p.arrival else t.clock;
    var end := start + p.burst;
    Trace(t.done + [Complete(p, start, end)], t.timeline + [Segment(p.id, start, end)], end)
  }

  /** The `forEach` over `ps`, from the first process not yet in `t.done`. */
  function Serve(ps: seq<Process>, t: Trace): (r: Trace)
    requires |t.done| <= |ps|
    ensures |r.done| == |ps|
    decreases |ps| - |t.done|
  {
    if |t.done| == |ps| then t else Serve(ps, Step(ps[|t.done|], t))
  }

  /** What holds after serving the first `|t.done|` processes of `ps`: each
      ran as one segment of its burst, in the order given, starting as soon
      as both it and the CPU were ready; the clock is where the last one
      ended. */
  predicate Inv(ps: seq<Process>, t: Trace) {
    && |t.timeline| == |t.done| <= |ps|
    && (forall i :: 0 <= i < |t.done| ==> Served(ps[i], t.done[i], t.timeline[i]))
    && (t.done != [] ==> t.done[0].start == Max(0, ps[0].arrival))
    && (forall i :: 0 < i < |t.done| ==> t.done[i].start == Max(t.done[i - 1].completion, ps[i].arrival))
    && t.clock == (if t.done == [] then 0 else t.done[|t.done| - 1].completion)
  }

  /** The time-line half of the invariant, for valid processes. */
  predicate TimeInv(ps: seq<Process>, t: Trace)
    requires |t.done| <= |ps|
  {
    && Ordered(t.timeline)
    && EndsBy(t.timeline, t.clock)
    && Busy(t.timeline) == TotalBurst(ps[..|t.done|])
    && (forall i :: 0 <= i < |t.done| ==> Sound(t.done[i]) && t.done[i].completion <= t.clock)
  }

  function Start(): Trace { Trace([], [], 0) }

  lemma StepInv(ps: seq<Process>, t: Trace)
    requires Inv(ps, t) && |t.done| < |ps|
    ensures Inv(ps, Step(ps[|t.done|], t))
  {
    var k := |t.done|;
    var t' := Step(ps[k], t);
    assert Served(ps[k], t'.done[k], t'.timeline[k]);
    assert t'.done[k].start == Max(t.clock, ps[k].arrival);
    assert forall i :: 0 <= i < k ==> t'.done[i] == t.done[i] && t'.timeline[i] == t.timeline[i];
  }

  lemma StepTimeInv(ps: seq<Process>, t: Trace)
    requires PositiveBursts(ps) && Inv(ps, t) && |t.done| < |ps| && TimeInv(ps, t)
    ensures TimeInv(ps, Step(ps[|t.done|], t))
  {
    var k := |t.done|;
    var p := ps[k];
    assert PositiveBurst(p) by { assert p in ps; }
    var t' := Step(p, t);
    Push(t.timeline, t'.timeline[k], t.clock);
    StepBusy(ps, t);
    assert forall i :: 0 <= i < k ==> t'.done[i] == t.done[i];
  }

  lemma StepBusy(ps: seq<Process>, t: Trace)
    requires |t.done| < |ps| && Busy(t.timeline) == TotalBurst(ps[..|t.done|])
    ensures Busy(Step(ps[|t.done|], t).timeline) == TotalBurst(ps[..|t.done| + 1])
  {
    var k := |t.done|;
    var t' := Step(ps[k], t);
    SumAppend(t.timeline, [t'.timeline[|t'.timeline| - 1]], Length);
    assert t'.timeline == t.timeline + [t'.timeline[|t'.timeline| - 1]];
    assert ps[..k + 1] == ps[..k] + [ps[k]];
    SumAppend(ps[..k], [ps[k]], Burst);
  }

  lemma {:induction false} ServeInv(ps: seq<Process>, t: Trace)
    requires Inv(ps, t)
    ensures Inv(ps, Serve(ps, t))
    ensures PositiveBursts(ps) && TimeInv(ps, t) ==> TimeInv(ps, Serve(ps, t))
    decreases |ps| - |t.done|
  {
    if |t.done| < |ps| {
      StepInv(ps, t);
      if PositiveBursts(ps) && TimeInv(ps, t) {
        StepTimeInv(ps, t);
      }
      ServeInv(ps, Step(ps[|t.done|], t));
    }
  }

  /** `fcfs`: the processes are reported in the stable arrival order in
      which they ran. */
  function Fcfs(input: seq<Process>): (r: Schedule)
    ensures Procs(r.processes) == SortBy(input, Arrival)
    ensures |r.timeline| == |input|
  {
    var sorted := SortBy(input, Arrival);
    var t := Serve(sorted, Start());
    ServeInv(sorted, Start());
    assert forall i :: 0 <= i < |sorted| ==> Procs(t.done)[i] == sorted[i];
    Report(t.done, t.timeline, t.clock)
  }

  /** The FCFS order and timing rule, stated on the result: each process
      runs as one segment of exactly its burst, starting as soon as both it
      and the CPU are ready. */
  lemma FcfsSteps(input: seq<Process>)
    ensures var r := Fcfs(input);
      forall i :: 0 <= i < |input| ==>
        && r.processes[i].completion == r.processes[i].start + r.processes[i].proc.burst
        && r.timeline[i] == Segment(r.processes[i].proc.id, r.processes[i].start, r.processes[i].completion)
        && r.processes[i].start == Max(if i == 0 then 0 else r.processes[i - 1].completion, r.processes[i].proc.arrival)
  {
    var sorted := SortBy(input, Arrival);
    ServeInv(sorted, Start());
  }

  /** Serving valid processes from the start leaves a sound, ordered
      timeline that holds their bursts and ends at the clock. */
  lemma ServeAll(ps: seq<Process>)
    requires PositiveBursts(ps)
    ensures var t := Serve(ps, Start());
      && Ordered(t.timeline) && Busy(t.timeline) == TotalBurst(ps) && End(t.timeline) == t.clock
      && forall i :: 0 <= i < |t.done| ==> Sound(t.done[i]) && t.done[i].completion <= t.clock
  {
    ServeInv(ps, Start());
    var t := Serve(ps, Start());
    assert ps[..|ps|] == ps;
    if t.timeline != [] {
      assert t.timeline[|t.timeline| - 1].end == t.clock;
    }
  }

  lemma FcfsAccounts(input: seq<Process>)
    requires PositiveBursts(input)
    ensures Accounts(input, Fcfs(input))
  {
    var sorted := SortBy(input, Arrival);
    PositivePermutation(input, sorted);
    ServeAll(sorted);
    SumPermutation(sorted, input, Burst);
  }
}

=== FILE: inputform.dfy ===
/** The process list editor and the validation in `handleSimulate`
    (src/components/ProcessInputForm.tsx): the only gate between what a
    user types and the scheduling engine. */
module InputForm {
  import opened Wrappers
  import opened Model

  // ----- decimal ids -----

  function Digit(d: nat): char
    requires d < 10
  {
    "0123456789"[d]
  }

  function DigitValue(c: char): int {
    c as int - '0' as int
  }

  /** The decimal numeral of `n`, as a template literal prints it. */
  function NatToString(n: nat): (s: string)
    ensures |s| >= 1
    ensures forall k :: 0 <= k < |s| ==> '0' <= s[k] <= '9'
    ensures n > 0 ==> s[0] != '0'
  {
    if n < 10 then [Digit(n)] else NatToString(n / 10) + [Digit(n % 10)]
  }

  /** Reads a string of decimal digits. */
  function ParseNat(s: string): int {
    if s == [] then 0 else ParseNat(s[..|s| - 1]) * 10 + DigitValue(s[|s| - 1])
  }

  lemma {:induction false} ParseNatToString(n: nat)
    ensures ParseNat(NatToString(n)) == n
  {
    if n >= 10 {
      var s := NatToString(n);
      assert s[..|s| - 1] == NatToString(n / 10);
      ParseNatToString(n / 10);
    }
  }

  /** Different numbers print differently. */
  lemma NatToStringInjective(m: nat, n: nat)
    requires NatToString(m) == NatToString(n)
    ensures m == n
  {
    ParseNatToString(m);
    ParseNatToString(n);
  }

  // ----- the list operations -----

  /** The process `addProcess` appends to a list of `n` processes. */
  function NewProcess(n: nat): Process {
    Process("P" + NatToString(n + 1), 0, 1, Some(1))
  }

  /** `addProcess`: appends `P<n+1>` with arrival 0, burst 1 and
      priority 1; the digits after the `P` read back as the new length. */
  function AddProcess(ps: seq<Process>): (r: seq<Process>)
    ensures |r| == |ps| + 1 && r[..|ps|] == ps
    ensures var p := r[|ps|];
      && p.arrival == 0 && p.burst == 1 && p.priority == Some(1)
      && p.id == "P" + NatToString(|ps| + 1)
      && |p.id| >= 2 && ParseNat(p.id[1..]) == |ps| + 1
  {
    var p := NewProcess(|ps|);
    ParseNatToString(|ps| + 1);
    assert p.id[1..] == NatToString(|ps| + 1);
    ps + [p]
  }

  /** `removeProcess`: refused (`None`, with an error toast) when at most
      one process is left; otherwise `filter` keeps every element whose
      position is not `index`. */
  function RemoveProcess(ps: seq<Process>, index: int): (r: Option<seq<Process>>)
    ensures r.None? <==> |ps| <= 1
    ensures r.Some? && 0 <= index < |ps| ==> r.value == ps[..index] + ps[index + 1..]
    ensures r.Some? && !(0 <= index < |ps|) ==> r.value == ps
  {
    if |ps| <= 1 then None
    else
      if 0 <= index < |ps| then WithoutIsSlice(ps, index); Some(Without(ps, index))
      else Some(Without(ps, index))
  }

  /** A field of a process as the form edits it. */
  datatype Edit = SetId(id: string) | SetArrival(arrival: int) | SetBurst(burst: int) | SetPriority(priority: int)

  /** `{ ...p, [field]: value }`. */
  function Apply(p: Process, e: Edit): Process {
    match e
    case SetId(v) => Process(v, p.arrival, p.burst, p.priority)
    case SetArrival(v) => Process(p.id, v, p.burst, p.priority)
    case SetBurst(v) => Process(p.id, p.arrival, v, p.priority)
    case SetPriority(v) => Process(p.id, p.arrival, p.burst, Some(v))
  }

  /** `updateProcess`: only the edited field of the process at `index`
      changes. */
  function UpdateProcess(ps: seq<Process>, index: nat, e: Edit): (r: seq<Process>)
    requires index < |ps|
    ensures |r| == |ps|
    ensures forall k :: 0 <= k < |ps| && k != index ==> r[k] == ps[k]
    ensures r[index].id == (if e.SetId? then e.id else ps[index].id)
    ensures r[index].arrival == (if e.SetArrival? then e.arrival else ps[index].arrival)
    ensures r[index].burst == (if e.SetBurst? then e.burst else ps[index].burst)
    ensures r[index].priority == (if e.SetPriority? then Some(e.priority) else ps[index].priority)
  {
    ps[index := Apply(ps[index], e)]
  }

  // ----- the input fields -----

  /** `parseInt(text) || fallback`: text that does not parse (`NaN`,
      modelled as `None`) and text that parses as 0 both give
      `fallback`. */
  function OrElse(parsed: Option<int>, fallback: int): (v: int)
    ensures v == fallback || parsed == Some(v)
    ensures fallback != 0 ==> v != 0
    ensures parsed.Some? && parsed.value != 0 ==> v == parsed.value
  {
    match parsed
    case None => fallback
    case Some(n) => if n == 0 then fallback else n
  }

  /** The `onChange` handlers of the arrival, burst and priority inputs. */
  function ArrivalField(parsed: Option<int>): Edit { SetArrival(OrElse(parsed, 0)) }

  function BurstField(parsed: Option<int>): Edit { SetBurst(OrElse(parsed, 1)) }

  function PriorityField(parsed: Option<int>): Edit { SetPriority(OrElse(parsed, 1)) }

  /** The `onChange` handler of the quantum input. */
  function QuantumField(parsed: Option<int>): int { OrElse(parsed, 1) }

  /** Burst, priority and quantum inputs never hold 0, and hold a value
      below 1 only when the user typed a negative number; an arrival below
      0 likewise comes only from a negative number. */
  lemma FieldsBelowOne(parsed: Option<int>)
    ensures BurstField(parsed).burst != 0 && PriorityField(parsed).priority != 0 && QuantumField(parsed) != 0
    ensures BurstField(parsed).burst < 1 <==> parsed.Some? && parsed.value < 0
    ensures PriorityField(parsed).priority < 1 <==> parsed.Some? && parsed.value < 0
    ensures QuantumField(parsed) < 1 <==> parsed.Some? && parsed.value < 0
    ensures ArrivalField(parsed).arrival < 0 <==> parsed.Some? && parsed.value < 0
  {
  }

  // ----- validation -----

  /** `algorithmType.includes('Priority')`. */
  predicate NeedsPriority(algorithm: string) {
    exists i :: 0 <= i <= |algorithm| && MatchesAt(algorithm, "Priority", i)
  }

  /** `t` occurs in `s` from position `i`. */
  predicate MatchesAt(s: string, t: string, i: int) {
    0 <= i <= |s| - |t| && s[i..i + |t|] == t
  }

  predicate NeedsTimeQuantum(algorithm: string) {
    algorithm == "RR"
  }

  /** Why `handleSimulate` refused, each with the process it names. */
  datatype Rejection = BadBurst(id: string) | BadArrival(id: string) | BadPriority(id: string) | BadQuantum

  /** The checks on one process, in the order the loop makes them. */
  function Check(p: Process, needsPriority: bool): Option<Rejection> {
    if p.burst <= 0 then Some(BadBurst(p.id))
    else if p.arrival < 0 then Some(BadArrival(p.id))
    else if needsPriority && (p.priority.None? || p.priority.value < 1) then Some(BadPriority(p.id))
    else None
  }

  /** The `for` loop: the first process that fails a check decides. */
  function CheckAll(ps: seq<Process>, needsPriority: bool): (r: Option<Rejection>)
    ensures r.None? <==> forall k :: 0 <= k < |ps| ==> Check(ps[k], needsPriority).None?
  {
    if ps == [] then None
    else
      assert forall k :: 1 <= k < |ps| ==> ps[k] == ps[1..][k - 1];
      var first := Check(ps[0], needsPriority);
      if first.Some? then first else CheckAll(ps[1..], needsPriority)
  }

  /** A failed check is the first process's that fails. */
  lemma {:induction false} CheckAllFirst(ps: seq<Process>, needsPriority: bool)
    requires CheckAll(ps, needsPriority).Some?
    ensures exists k :: (0 <= k < |ps| && CheckAll(ps, needsPriority) == Check(ps[k], needsPriority)
      && forall m :: 0 <= m < k ==> Check(ps[m], needsPriority).None?)
  {
    if Check(ps[0], needsPriority).None? {
      CheckAllFirst(ps[1..], needsPriority);
      var k :| 0 <= k < |ps[1..]| && CheckAll(ps[1..], needsPriority) == Check(ps[1..][k], needsPriority)
        && forall m :: 0 <= m < k ==> Check(ps[1..][m], needsPriority).None?;
      assert forall m :: 1 <= m < k + 1 ==> ps[m] == ps[1..][m - 1];
      assert CheckAll(ps, needsPriority) == Check(ps[k + 1], needsPriority);
    } else {
      assert CheckAll(ps, needsPriority) == Check(ps[0], needsPriority);
    }
  }

  /** What `onSimulate` receives. */
  datatype Call = Call(processes: seq<Process>, quantum: Option<int>)

  /** `handleSimulate`: the per-process checks, then the quantum check for
      Round Robin; on success the list goes to `onSimulate`, with the
      quantum only for Round Robin. */
  function HandleSimulate(ps: seq<Process>, algorithm: string, quantum: int): Result<Call, Rejection> {
    match CheckAll(ps, NeedsPriority(algorithm))
    case Some(why) => Err(why)
    case None =>
      if NeedsTimeQuantum(algorithm) && quantum <= 0 then Err(BadQuantum)
      else Ok(Call(ps, if NeedsTimeQuantum(algorithm) then Some(quantum) else None))
  }

  // ----- what validation guarantees -----

  /** The simulation starts exactly when every process has a positive
      burst and a non-negative arrival (and a priority of at least 1 for
      the priority algorithms) and, for Round Robin, the quantum is
      positive; it then receives the list unchanged. */
  lemma HandleSimulateAccepts(ps: seq<Process>, algorithm: string, quantum: int)
    ensures HandleSimulate(ps, algorithm, quantum).Ok? <==>
      && (forall k :: 0 <= k < |ps| ==> ps[k].burst > 0 && ps[k].arrival >= 0)
      && (NeedsPriority(algorithm) ==> forall k :: 0 <= k < |ps| ==> ps[k].priority.Some? && ps[k].priority.value >= 1)
      && (NeedsTimeQuantum(algorithm) ==> quantum > 0)
    ensures HandleSimulate(ps, algorithm, quantum).Ok? ==>
      && HandleSimulate(ps, algorithm, quantum).value.processes == ps
      && HandleSimulate(ps, algorithm, quantum).value.quantum == (if algorithm == "RR" then Some(quantum) else None)
  {
    var np := NeedsPriority(algorithm);
    if (forall k :: 0 <= k < |ps| ==> ps[k].burst > 0 && ps[k].arrival >= 0)
       && (np ==> forall k :: 0 <= k < |ps| ==> ps[k].priority.Some? && ps[k].priority.value >= 1) {
      forall k | 0 <= k < |ps|
        ensures Check(ps[k], np).None?
      {
      }
    }
  }

  /** A rejection names the first process that fails, and the check it
      fails; every process before it passes. */
  lemma HandleSimulateRejects(ps: seq<Process>, algorithm: string, quantum: int)
    requires HandleSimulate(ps, algorithm, quantum).Err?
    ensures var why := HandleSimulate(ps, algorithm, quantum).error;
      && (why.BadQuantum? ==> algorithm == "RR" && quantum <= 0)
      && (!why.BadQuantum? ==> exists k :: (0 <= k < |ps| && ps[k].id == why.id
            && (forall m :: 0 <= m < k ==> Check(ps[m], NeedsPriority(algorithm)).None?)
            && (why.BadBurst? ==> ps[k].burst <= 0)
            && (why.BadArrival? ==> ps[k].burst > 0 && ps[k].arrival < 0)
            && (why.BadPriority? ==> (ps[k].burst > 0 && ps[k].arrival >= 0 && NeedsPriority(algorithm)
                  && (ps[k].priority.None? || ps[k].priority.value < 1)))))
  {
    var np := NeedsPriority(algorithm);
    if CheckAll(ps, np).Some? {
      CheckAllFirst(ps, np);
    }
  }

  /** Whatever the form lets through satisfies what the engine needs. */
  lemma AcceptedIsValid(ps: seq<Process>, algorithm: string, quantum: int)
    requires HandleSimulate(ps, algorithm, quantum).Ok?
    ensures PositiveBursts(ps)
  {
    HandleSimulateAccepts(ps, algorithm, quantum);
    forall p | p in ps
      ensures PositiveBurst(p)
    {
      var k :| 0 <= k < |ps| && ps[k] == p;
    }
  }

  // ----- ids -----

  /** The starting list of the form. */
  function Defaults(): seq<Process> {
    [Process("P1", 0, 5, Some(2)), Process("P2", 1, 3, Some(1)), Process("P3", 2, 8, Some(3))]
  }

  /** `addProcess` names the new process after the list's length, so after
      a removal it can reuse an id that is still present: removing `P1` from
      the starting list and adding gives two processes named `P3`. The
      engine needs distinct ids for its per-process accounting. */
  lemma AddAfterRemoveRepeatsId()
    ensures RemoveProcess(Defaults(), 0).Some?
    ensures var r := AddProcess(RemoveProcess(Defaults(), 0).value);
      && |r| == 3 && r[1].id == "P3" && r[2].id == "P3" && !DistinctIds(r)
  {
    WithoutIsSlice(Defaults(), 0);
    assert NatToString(3) == "3";
  }

  /** Ids `P1`, `P2`, … in list order, as the starting list has them. */
  predicate Numbered(ps: seq<Process>) {
    forall k :: 0 <= k < |ps| ==> ps[k].id == "P" + NatToString(k + 1)
  }

  lemma DefaultsNumbered()
    ensures Numbered(Defaults())
  {
    assert NatToString(1) == "1" && NatToString(2) == "2" && NatToString(3) == "3";
  }

  /** As long as nothing is removed, adding keeps the ids numbered in
      order, and numbered ids are distinct. */
  lemma NumberedDistinct(ps: seq<Process>)
    requires Numbered(ps)
    ensures Numbered(AddProcess(ps)) && DistinctIds(AddProcess(ps))
  {
    var r := AddProcess(ps);
    assert Numbered(r);
    forall i, j | 0 <= i < j < |r|
      ensures r[i].id != r[j].id
    {
      NumberedApart(i + 1, j + 1);
    }
  }

  lemma NumberedApart(m: nat, n: nat)
    requires m != n
    ensures "P" + NatToString(m) != "P" + NatToString(n)
  {
    if "P" + NatToString(m) == "P" + NatToString(n) {
      assert ("P" + NatToString(m))[1..] == NatToString(m);
      assert ("P" + NatToString(n))[1..] == NatToString(n);
      NatToStringInjective(m, n);
    }
  }

  /** Adding keeps ids distinct exactly when no process already has the
      new id. */
  lemma AddProcessDistinct(ps: seq<Process>)
    requires DistinctIds(ps)
    ensures DistinctIds(AddProcess(ps)) <==> forall k :: 0 <= k < |ps| ==> ps[k].id != NewProcess(|ps|).id
  {
    var r := AddProcess(ps);
    assert r == ps + [NewProcess(|ps|)];
    if !DistinctIds(r) {
      var i, j :| 0 <= i < j < |r| && r[i].id == r[j].id;
      assert j == |ps|;
    }
  }
}

=== FILE: jobs.dfy ===
/** The per-process simulation state of the preemptive algorithms (SRTF,
    Priority-P and Round Robin): the source copies each process and adds
    `remainingTime`, and later `startTime` and `completionTime`, to it. */
module Jobs {
  import opened Wrappers
  import opened Model

  datatype Job = Job(proc: Process, rem: int, start: Option<int>, completion: Option<int>)

  /** `p.remainingTime = p.burstTime` on the deep copy. */
  function Fresh(p: Process): Job {
    Job(p, p.burst, None, None)
  }

  function FreshAll(ps: seq<Process>): (js: seq<Job>)
    ensures |js| == |ps|
    ensures forall k :: 0 <= k < |ps| ==> js[k] == Fresh(ps[k])
  {
    seq(|ps|, k requires 0 <= k < |ps| => Fresh(ps[k]))
  }

  function Rem(j: Job): int { j.rem }

  function TotalRem(js: seq<Job>): int { Sum(js, Rem) }

  /** 1 for a job with nothing left to run. */
  function DoneFlag(j: Job): int { if j.rem == 0 then 1 else 0 }

  /** How many jobs have nothing left to run: at most all of them, all of
      them exactly when every job is finished, and none when none is. */
  lemma {:induction false} DoneCount(js: seq<Job>)
    ensures 0 <= Sum(js, DoneFlag) <= |js|
    ensures Sum(js, DoneFlag) == |js| <==> forall k :: 0 <= k < |js| ==> js[k].rem == 0
    ensures (forall k :: 0 <= k < |js| ==> js[k].rem != 0) ==> Sum(js, DoneFlag) == 0
  {
    if js != [] {
      DoneCount(js[1..]);
      assert forall k :: 1 <= k < |js| ==> js[k] == js[1..][k - 1];
    }
  }

  /** Fresh jobs still need exactly the processes' bursts. */
  lemma {:induction false} FreshRem(ps: seq<Process>)
    ensures TotalRem(FreshAll(ps)) == TotalBurst(ps)
  {
    if ps != [] {
      assert FreshAll(ps)[1..] == FreshAll(ps[1..]);
      FreshRem(ps[1..]);
    }
  }

  /** Nothing left to run means no remaining work in all. */
  lemma {:induction false} SumZero(js: seq<Job>)
    requires forall k :: 0 <= k < |js| ==> js[k].rem == 0
    ensures TotalRem(js) == 0
  {
    if js != [] {
      assert forall k :: 0 <= k < |js[1..]| ==> js[1..][k] == js[k + 1];
      SumZero(js[1..]);
    }
  }

  function JobProcs(js: seq<Job>): (ps: seq<Process>)
    ensures |ps| == |js|
    ensures forall k :: 0 <= k < |js| ==> ps[k] == js[k].proc
  {
    seq(|js|, k requires 0 <= k < |js| => js[k].proc)
  }

  /** The bookkeeping of one job is consistent with the clock `t`:
      `startTime` is set exactly when it has run, it ran no earlier than it
      arrived and for `burst - rem` units since, and `completionTime` is set
      exactly when nothing remains. */
  predicate JobOk(j: Job, t: int) {
    && j.proc.burst >= 1
    && 0 <= j.rem <= j.proc.burst
    && (j.start.None? <==> j.rem == j.proc.burst)
    && (j.start.Some? ==> j.proc.arrival <= j.start.value && j.start.value + (j.proc.burst - j.rem) <= t)
    && (j.completion.Some? <==> j.rem == 0)
    && (j.completion.Some? ==> j.start.Some? && j.start.value + j.proc.burst <= j.completion.value <= t)
  }

  predicate AllOk(js: seq<Job>, t: int) {
    forall k :: 0 <= k < |js| ==> JobOk(js[k], t)
  }

  /** Runs the job for `d` units from time `t`: `startTime` is set only on
      its first run, and `completionTime` when `remainingTime` reaches 0. */
  function Run(j: Job, t: int, d: int): Job {
    var rem := j.rem - d;
    Job(j.proc, rem,
        if j.start.None? then Some(t) else j.start,
        if rem == 0 then Some(t + d) else j.completion)
  }

  /** Running an arrived job keeps its bookkeeping consistent, now with the
      clock `d` units later; it needs `d` units less. */
  lemma RunOk(j: Job, t: int, d: int)
    requires JobOk(j, t) && j.proc.arrival <= t && 1 <= d <= j.rem
    ensures JobOk(Run(j, t, d), t + d)
    ensures Run(j, t, d).proc == j.proc && Run(j, t, d).rem == j.rem - d
  {
  }

  lemma LaterOk(js: seq<Job>, t: int, t': int)
    requires AllOk(js, t) && t <= t'
    ensures AllOk(js, t')
  {
  }

  /** After running job `k` for `d` units, every job is consistent with the
      later clock and the total remaining work has dropped by `d`. */
  lemma RunAllOk(js: seq<Job>, k: nat, t: int, d: int)
    requires k < |js| && AllOk(js, t) && js[k].proc.arrival <= t && 1 <= d <= js[k].rem
    ensures AllOk(js[k := Run(js[k], t, d)], t + d)
    ensures TotalRem(js[k := Run(js[k], t, d)]) == TotalRem(js) - d
    ensures JobProcs(js[k := Run(js[k], t, d)]) == JobProcs(js)
  {
    RunOk(js[k], t, d);
    SumUpdate(js, k, Run(js[k], t, d), Rem);
  }

  /** A job with nothing left, as the record the engine reports. */
  function ToFinished(j: Job): (f: Finished)
    requires j.start.Some? && j.completion.Some?
  {
    Complete(j.proc, j.start.value, j.completion.value)
  }

  /** The reported records, in the order of the jobs; sound when the jobs
      are consistent with the clock `t`. */
  function ReportAll(js: seq<Job>, t: int): (fs: seq<Finished>)
    requires forall k :: 0 <= k < |js| ==> js[k].start.Some? && js[k].completion.Some?
    ensures |fs| == |js| && Procs(fs) == JobProcs(js)
    ensures AllOk(js, t) ==> forall k :: 0 <= k < |fs| ==> Sound(fs[k]) && fs[k].completion <= t
  {
    seq(|js|, k requires 0 <= k < |js| => ToFinished(js[k]))
  }

  /** The per-process counterpart of conservation: the CPU time the
      timeline gives each job, plus what it still needs, is its burst. */
  predicate Conserved(js: seq<Job>, tl: seq<Segment>) {
    forall k :: 0 <= k < |js| ==> BusyFor(tl, js[k].proc.id) + js[k].rem == js[k].proc.burst
  }

  /** The jobs agree with the Gantt chart: a job's `startTime` is when its
      process first got the CPU (none while it has not), and a completed
      job's `completionTime` is when its process last gave the CPU up. */
  predicate Charted(js: seq<Job>, tl: seq<Segment>) {
    forall k :: 0 <= k < |js| ==>
      && js[k].start == FirstStart(tl, js[k].proc.id)
      && (js[k].completion.Some? ==> js[k].completion == LastEndOf(tl, js[k].proc.id))
  }

  /** Fresh jobs, none of which has run, agree with an empty chart. */
  lemma FreshCharted(ps: seq<Process>)
    ensures Charted(FreshAll(ps), [])
  {
    var js := FreshAll(ps);
    forall k | 0 <= k < |js|
      ensures js[k].start == FirstStart([], js[k].proc.id) && js[k].completion.None?
    {
      assert js[k] == Fresh(ps[k]);
    }
  }

  /** With distinct ids, running job `k` for `d` units from `t` while the
      chart records its process as running up to `t + d` (and nothing else
      changes on it) keeps the jobs and the chart in agreement. */
  lemma RunCharted(js: seq<Job>, k: nat, t: int, d: int, tl: seq<Segment>, tl': seq<Segment>)
    requires k < |js| && DistinctIds(JobProcs(js)) && Charted(js, tl) && js[k].completion.None?
    requires var id := js[k].proc.id;
      && FirstStart(tl', id) == (if FirstStart(tl, id).Some? then FirstStart(tl, id) else Some(t))
      && LastEndOf(tl', id) == Some(t + d)
      && forall other :: other != id ==> FirstStart(tl', other) == FirstStart(tl, other) && LastEndOf(tl', other) == LastEndOf(tl, other)
    ensures Charted(js[k := Run(js[k], t, d)], tl')
  {
    var ps := JobProcs(js);
    forall i | 0 <= i < |js| && i != k
      ensures js[i].proc.id != js[k].proc.id
    {
      assert ps[i] == js[i].proc && ps[k] == js[k].proc;
    }
  }

  /** Jobs that agree with the chart report records that agree with it. */
  lemma ReportTraced(js: seq<Job>, t: int, tl: seq<Segment>)
    requires forall k :: 0 <= k < |js| ==> js[k].start.Some? && js[k].completion.Some?
    requires Charted(js, tl)
    ensures Traced(ReportAll(js, t), tl)
  {
  }
}

=== FILE: metrics.dfy ===
/** `calculateMetrics` (src/utils/schedulingAlgorithms.ts): the average
    waiting and turnaround time over the reported processes. The source
    divides by the count even when it is 0; the model returns `None` there,
    for the NaN the source produces. */
module Metrics {
  import opened Wrappers
  import opened Model

  /** `total / n`. */
  function Mean(total: int, n: nat): (r: Option<real>)
    ensures r.Some? <==> n > 0
    ensures r.Some? ==> r.value * (n as real) == total as real
  {
    if n == 0 then None else Some(total as real / n as real)
  }

  datatype Averages = Averages(avgWaiting: Option<real>, avgTurnaround: Option<real>)

  /** Over sound records, the waiting times sum to a non-negative total and
      turnaround exceeds waiting by exactly the CPU time the processes need. */
  lemma {:induction false} SoundSums(fs: seq<Finished>)
    requires forall i :: 0 <= i < |fs| ==> Sound(fs[i])
    ensures Sum(fs, Waiting) >= 0
    ensures Sum(fs, Turnaround) == Sum(fs, Waiting) + TotalBurst(Procs(fs))
  {
    if fs != [] {
      SoundSums(fs[1..]);
      assert Procs(fs)[1..] == Procs(fs[1..]);
    }
  }

  function CalculateMetrics(fs: seq<Finished>): (r: Averages)
    ensures r.avgWaiting.Some? <==> |fs| > 0
    ensures r.avgTurnaround.Some? <==> |fs| > 0
    ensures |fs| > 0 ==> r.avgWaiting.value * (|fs| as real) == Sum(fs, Waiting) as real
    ensures |fs| > 0 ==> r.avgTurnaround.value * (|fs| as real) == Sum(fs, Turnaround) as real
    ensures |fs| > 0 && (forall i :: 0 <= i < |fs| ==> Sound(fs[i])) ==>
      && r.avgWaiting.value >= 0.0
      && (r.avgTurnaround.value - r.avgWaiting.value) * (|fs| as real) == TotalBurst(Procs(fs)) as real
  {
    var w := Sum(fs, Waiting);
    var t := Sum(fs, Turnaround);
    var r := Averages(Mean(w, |fs|), Mean(t, |fs|));
    if |fs| > 0 && (forall i :: 0 <= i < |fs| ==> Sound(fs[i])) then
      SoundSums(fs);
      assert r.avgWaiting.value == w as real / |fs| as real;
      r
    else r
  }

  /** Packs a finished run into the engine's result, with its averages. */
  function Report(fs: seq<Finished>, tl: seq<Segment>, total: int): (r: Schedule)
    ensures r.processes == fs && r.timeline == tl && r.totalTime == total
    ensures Averages(r.avgWaiting, r.avgTurnaround) == CalculateMetrics(fs)
  {
    var m := CalculateMetrics(fs);
    Schedule(fs, tl, m.avgWaiting, m.avgTurnaround, total)
  }
}

=== FILE: model.dfy ===
/** The entities the scheduling engine works on (src/types/scheduling.ts):
    process descriptors, Gantt segments, finished processes and the result
    of one simulation, plus the sums and timeline predicates every
    algorithm's contract is stated with. */
module Model {
  import opened Wrappers

  /** A process as the caller supplies it. Times are integers; the engine
      itself does not check them (the input form does). */
  datatype Process = Process(id: string, arrival: int, burst: int, priority: Option<int>)

  function Arrival(p: Process): int { p.arrival }

  function Burst(p: Process): int { p.burst }

  /** The priority comparators read `p.priority || 0`: a missing priority
      weighs as 0, the most urgent value. */
  function PriorityKey(p: Process): int { p.priority.GetOr(0) }

  /** What the engine assumes of every process: it needs at least one
      unit of CPU time. A process with a burst of 0 or less is never
      eligible in the preemptive loops and never counted as completed, so
      they would wait for it forever; a negative burst would also make a
      segment end before it starts. Arrival times may be any integer. */
  predicate PositiveBurst(p: Process) {
    p.burst >= 1
  }

  predicate PositiveBursts(ps: seq<Process>) {
    forall p :: p in ps ==> PositiveBurst(p)
  }

  lemma PositivePermutation(a: seq<Process>, b: seq<Process>)
    requires PositiveBursts(a) && multiset(a) == multiset(b)
    ensures PositiveBursts(b)
  {
    forall p | p in b
      ensures PositiveBurst(p)
    {
      assert p in multiset(b);
    }
  }

  predicate DistinctIds(ps: seq<Process>) {
    forall i, j :: 0 <= i < j < |ps| ==> ps[i].id != ps[j].id
  }

  /** 1 for a process named `id`. */
  function Named(id: string): Process -> int {
    (p: Process) => if p.id == id then 1 else 0
  }

  lemma {:induction false} SumOfZeros<T>(s: seq<T>, f: T -> int)
    requires forall k :: 0 <= k < |s| ==> f(s[k]) == 0
    ensures Sum(s, f) == 0
  {
    if s != [] {
      assert forall k :: 0 <= k < |s[1..]| ==> s[1..][k] == s[k + 1];
      SumOfZeros(s[1..], f);
    }
  }

  /** With distinct ids, each id names exactly one process. */
  lemma {:induction false} NamedOnce(ps: seq<Process>, i: nat)
    requires DistinctIds(ps) && i < |ps|
    ensures Sum(ps, Named(ps[i].id)) == 1
  {
    var f := Named(ps[i].id);
    var rest := ps[1..];
    assert forall a :: 0 <= a < |rest| ==> rest[a] == ps[a + 1];
    if i == 0 {
      SumOfZeros(rest, f);
    } else {
      assert ps[i] == rest[i - 1];
      NamedOnce(rest, i - 1);
    }
  }

  lemma {:induction false} NamedSome(ps: seq<Process>, i: nat)
    requires i < |ps|
    ensures Sum(ps, Named(ps[i].id)) >= 1
  {
    var f := Named(ps[i].id);
    var rest := ps[1..];
    assert forall a :: 0 <= a < |rest| ==> rest[a] == ps[a + 1];
    if i == 0 {
      SumNonNegative(rest, f);
    } else {
      assert ps[i] == rest[i - 1];
      NamedSome(rest, i - 1);
    }
  }

  lemma {:induction false} NamedTwice(ps: seq<Process>, i: nat, j: nat)
    requires i < j < |ps| && ps[i].id == ps[j].id
    ensures Sum(ps, Named(ps[i].id)) >= 2
  {
    var rest := ps[1..];
    assert forall a :: 0 <= a < |rest| ==> rest[a] == ps[a + 1];
    assert ps[j] == rest[j - 1];
    if i == 0 {
      NamedSome(rest, j - 1);
    } else {
      assert ps[i] == rest[i - 1];
      NamedTwice(rest, i - 1, j - 1);
    }
  }

  /** Reordering processes keeps their ids distinct. */
  lemma DistinctPermutation(a: seq<Process>, b: seq<Process>)
    requires DistinctIds(a) && multiset(a) == multiset(b)
    ensures DistinctIds(b)
  {
    forall x, y | 0 <= x < y < |b|
      ensures b[x].id != b[y].id
    {
      if b[x].id == b[y].id {
        NamedTwice(b, x, y);
        SumPermutation(b, a, Named(b[x].id));
        assert b[x] in multiset(a);
        var i :| 0 <= i < |a| && a[i] == b[x];
        NamedOnce(a, i);
      }
    }
  }

  /** The elements at every position but `index`, in order, as
      `filter((_, i) => i !== index)` keeps them. */
  function Without(ps: seq<Process>, index: int): (r: seq<Process>)
    ensures 0 <= index < |ps| ==> |r| == |ps| - 1
    ensures !(0 <= index < |ps|) ==> r == ps
    decreases |ps|
  {
    if ps == [] then []
    else
      var rest := Without(ps[1..], index - 1);
      if index == 0 then rest else [ps[0]] + rest
  }

  /** For an index inside the list, that is `splice(index, 1)`. */
  lemma {:induction false} WithoutIsSlice(ps: seq<Process>, index: int)
    requires 0 <= index < |ps|
    ensures Without(ps, index) == ps[..index] + ps[index + 1..]
  {
    if index > 0 {
      WithoutIsSlice(ps[1..], index - 1);
      assert ps[1..][..index - 1] == ps[1..index];
      assert ps[1..][index..] == ps[index + 1..];
      assert ps[..index] == [ps[0]] + ps[1..index];
    } else {
      assert Without(ps[1..], -1) == ps[1..];
    }
  }

  /** Dropping one element removes exactly that element from the multiset. */
  lemma WithoutParts(s: seq<Process>, i: nat)
    requires i < |s|
    ensures multiset(Without(s, i)) + multiset{s[i]} == multiset(s)
    ensures forall q :: q in Without(s, i) ==> q in s
  {
    WithoutIsSlice(s, i);
    SpliceParts(s, i);
  }

  lemma SpliceParts<T>(s: seq<T>, i: nat)
    requires i < |s|
    ensures multiset(s[..i] + s[i + 1..]) + multiset{s[i]} == multiset(s)
    ensures forall q :: q in s[..i] + s[i + 1..] ==> q in s
  {
    assert s == s[..i] + [s[i]] + s[i + 1..];
  }

  /** One contiguous run of a process on the CPU, `[start, end)`. */
  datatype Segment = Segment(pid: string, start: int, end: int)

  function Length(g: Segment): int { g.end - g.start }

  /** A process once the simulation has completed it. */
  datatype Finished = Finished(proc: Process, start: int, completion: int, turnaround: int, waiting: int)

  /** Records completion at `completion`, deriving turnaround and waiting
      time from it. */
  function Complete(p: Process, start: int, completion: int): Finished {
    var turnaround := completion - p.arrival;
    Finished(p, start, completion, turnaround, turnaround - p.burst)
  }

  function Waiting(f: Finished): int { f.waiting }

  function Turnaround(f: Finished): int { f.turnaround }

  function ProcOf(f: Finished): Process { f.proc }

  /** The metric identities, and a run that could really have happened:
      the process started no earlier than it arrived and completed no
      earlier than `burst` units after it started. Together these give
      `waiting >= 0` and `turnaround >= burst`. */
  predicate Sound(f: Finished) {
    && f.turnaround == f.completion - f.proc.arrival
    && f.waiting == f.turnaround - f.proc.burst
    && f.proc.arrival <= f.start
    && f.start + f.proc.burst <= f.completion
  }

  /** What a simulation loop has produced so far: the processes it
      completed (in completion order), the Gantt chart, and the clock. */
  datatype Trace = Trace(done: seq<Finished>, timeline: seq<Segment>, clock: int)

  /** The result of one simulation. An average is `None` where the source
      divides by a zero count and yields NaN. */
  datatype Schedule = Schedule(
    processes: seq<Finished>,
    timeline: seq<Segment>,
    avgWaiting: Option<real>,
    avgTurnaround: Option<real>,
    totalTime: int)

  /** Sum of `f` over `s`. */
  function Sum<T>(s: seq<T>, f: T -> int): int {
    if s == [] then 0 else f(s[0]) + Sum(s[1..], f)
  }

  lemma {:induction false} SumAppend<T>(a: seq<T>, b: seq<T>, f: T -> int)
    ensures Sum(a + b, f) == Sum(a, f) + Sum(b, f)
  {
    if a == [] {
      assert a + b == b;
    } else {
      assert (a + b)[1..] == a[1..] + b;
      SumAppend(a[1..], b, f);
    }
  }

  /** Replacing one element changes the sum by the difference. */
  lemma {:induction false} SumUpdate<T>(s: seq<T>, k: nat, x: T, f: T -> int)
    requires k < |s|
    ensures Sum(s[k := x], f) == Sum(s, f) - f(s[k]) + f(x)
  {
    if k == 0 {
      assert s[k := x][1..] == s[1..];
    } else {
      assert s[k := x][1..] == s[1..][k - 1 := x];
      SumUpdate(s[1..], k - 1, x, f);
    }
  }

  /** A sum does not depend on the order of the summands. */
  lemma {:induction false} SumPermutation<T>(a: seq<T>, b: seq<T>, f: T -> int)
    requires multiset(a) == multiset(b)
    ensures Sum(a, f) == Sum(b, f)
    decreases |a|
  {
    if a == [] {
      assert |b| == |multiset(b)| == 0;
    } else {
      var x := a[0];
      assert x in multiset(b);
      var i :| 0 <= i < |b| && b[i] == x;
      var rest := b[..i] + b[i + 1..];
      assert b == b[..i] + ([x] + b[i + 1..]);
      SumAppend(b[..i], [x] + b[i + 1..], f);
      SumAppend(b[..i], b[i + 1..], f);
      assert ([x] + b[i + 1..])[1..] == b[i + 1..];
      assert a == [x] + a[1..];
      SpliceParts(b, i);
      calc {
        multiset(a[1..]);
        multiset(a) - multiset{x};
        multiset(rest) + multiset{x} - multiset{x};
        multiset(rest);
      }
      SumPermutation(a[1..], rest, f);
    }
  }

  lemma {:induction false} SumNonNegative<T>(s: seq<T>, f: T -> int)
    requires forall i :: 0 <= i < |s| ==> f(s[i]) >= 0
    ensures Sum(s, f) >= 0
  {
    if s != [] {
      assert forall i :: 0 <= i < |s[1..]| ==> s[1..][i] == s[i + 1];
      SumNonNegative(s[1..], f);
    }
  }

  /** CPU time the processes need in all. */
  function TotalBurst(ps: seq<Process>): int { Sum(ps, Burst) }

  /** CPU time the timeline accounts for. */
  function Busy(tl: seq<Segment>): int { Sum(tl, Length) }

  /** The length of a segment of the process named `id`; 0 for others. */
  function LengthOf(id: string): Segment -> int {
    (g: Segment) => if g.pid == id then g.end - g.start else 0
  }

  /** CPU time the timeline gives the process named `id`. */
  function BusyFor(tl: seq<Segment>, id: string): int { Sum(tl, LengthOf(id)) }

  function Procs(fs: seq<Finished>): (ps: seq<Process>)
    ensures |ps| == |fs|
    ensures forall i :: 0 <= i < |fs| ==> ps[i] == fs[i].proc
  {
    seq(|fs|, i requires 0 <= i < |fs| => fs[i].proc)
  }

  lemma ProcsAppend(fs: seq<Finished>, f: Finished)
    ensures Procs(fs + [f]) == Procs(fs) + [f.proc]
  {
    assert forall i :: 0 <= i < |fs| ==> Procs(fs + [f])[i] == (Procs(fs) + [f.proc])[i];
  }

  /** Process `p` ran without preemption as the single segment `g` of
      exactly its burst, and `f` records it. */
  predicate Served(p: Process, f: Finished, g: Segment) {
    && f == Complete(p, f.start, f.start + p.burst)
    && g == Segment(p.id, f.start, f.completion)
  }

  /** Every segment is non-empty, and segments are in time order without
      overlap (idle gaps between them are allowed). */
  predicate Ordered(tl: seq<Segment>) {
    && (forall i :: 0 <= i < |tl| ==> tl[i].start < tl[i].end)
    && (forall i, j :: 0 <= i < j < |tl| ==> tl[i].end <= tl[j].start)
  }

  /** No segment is followed straight on by another run of the same
      process: each segment is a whole contiguous run, as a Gantt chart
      draws it. */
  predicate Maximal(tl: seq<Segment>) {
    forall i :: 0 <= i < |tl| - 1 ==> tl[i].pid != tl[i + 1].pid || tl[i].end < tl[i + 1].start
  }

  /** Nothing in the timeline runs past time `t`. */
  predicate EndsBy(tl: seq<Segment>, t: int) {
    forall i :: 0 <= i < |tl| ==> tl[i].end <= t
  }

  /** When the timeline's last segment ends; 0 for an empty timeline. */
  function End(tl: seq<Segment>): int {
    if tl == [] then 0 else tl[|tl| - 1].end
  }

  /** Appending a segment that starts no earlier than everything before it
      ended keeps the timeline ordered and adds its length to the busy time. */
  lemma Push(tl: seq<Segment>, g: Segment, t: int)
    requires Ordered(tl) && EndsBy(tl, t) && t <= g.start < g.end
    ensures Ordered(tl + [g]) && EndsBy(tl + [g], g.end)
    ensures Busy(tl + [g]) == Busy(tl) + Length(g)
    ensures forall id :: BusyFor(tl + [g], id) == BusyFor(tl, id) + (if g.pid == id then Length(g) else 0)
  {
    SumAppend(tl, [g], Length);
    forall id
      ensures BusyFor(tl + [g], id) == BusyFor(tl, id) + (if g.pid == id then Length(g) else 0)
    {
      SumAppend(tl, [g], LengthOf(id));
    }
  }

  /** `ganttChart[ganttChart.length - 1].endTime++`. */
  function ExtendLast(tl: seq<Segment>): (r: seq<Segment>)
    requires |tl| > 0
    ensures |r| == |tl| && r[..|tl| - 1] == tl[..|tl| - 1]
    ensures r[|tl| - 1] == tl[|tl| - 1].(end := tl[|tl| - 1].end + 1)
  {
    var last := tl[|tl| - 1];
    tl[..|tl| - 1] + [last.(end := last.end + 1)]
  }

  /** Extending a last segment that ends exactly at `t` by one unit keeps
      the timeline ordered and adds one unit of busy time. */
  lemma Extend(tl: seq<Segment>, t: int)
    requires Ordered(tl) && EndsBy(tl, t) && |tl| > 0 && tl[|tl| - 1].end == t
    ensures Ordered(ExtendLast(tl)) && EndsBy(ExtendLast(tl), t + 1)
    ensures Busy(ExtendLast(tl)) == Busy(tl) + 1
    ensures forall id :: BusyFor(ExtendLast(tl), id) == BusyFor(tl, id) + (if tl[|tl| - 1].pid == id then 1 else 0)
  {
    var n := |tl| - 1;
    assert tl == tl[..n] + [tl[n]];
    SumAppend(tl[..n], [tl[n]], Length);
    SumAppend(tl[..n], [tl[n].(end := t + 1)], Length);
    forall id
      ensures BusyFor(ExtendLast(tl), id) == BusyFor(tl, id) + (if tl[n].pid == id then 1 else 0)
    {
      SumAppend(tl[..n], [tl[n]], LengthOf(id));
      SumAppend(tl[..n], [tl[n].(end := t + 1)], LengthOf(id));
    }
  }

  /** Process `id` holds the CPU at time `u`: one of its segments covers
      `u`. */
  predicate RanAt(tl: seq<Segment>, id: string, u: int) {
    exists i :: 0 <= i < |tl| && tl[i].pid == id && tl[i].start <= u < tl[i].end
  }

  /** An appended segment adds exactly its own span to when its process
      holds the CPU. */
  lemma RanAtAppend(tl: seq<Segment>, g: Segment)
    ensures forall u, other :: RanAt(tl + [g], other, u) <==> RanAt(tl, other, u) || (other == g.pid && g.start <= u < g.end)
  {
    var r := tl + [g];
    forall u, other
      ensures RanAt(r, other, u) <==> RanAt(tl, other, u) || (other == g.pid && g.start <= u < g.end)
    {
      if RanAt(r, other, u) {
        var i :| 0 <= i < |r| && r[i].pid == other && r[i].start <= u < r[i].end;
        if i < |tl| {
          assert tl[i] == r[i];
        }
      }
      if RanAt(tl, other, u) {
        var i :| 0 <= i < |tl| && tl[i].pid == other && tl[i].start <= u < tl[i].end;
        assert r[i] == tl[i];
      }
      if other == g.pid && g.start <= u < g.end {
        assert r[|tl|] == g;
      }
    }
  }

  /** Moving the end of a last segment that ends at `t` by one unit adds
      exactly the moment `t`, for that segment's process. */
  lemma RanAtExtend(tl: seq<Segment>, t: int)
    requires Ordered(tl) && |tl| > 0 && tl[|tl| - 1].end == t
    ensures forall u, other :: RanAt(ExtendLast(tl), other, u) <==> RanAt(tl, other, u) || (u == t && other == tl[|tl| - 1].pid)
  {
    var n := |tl| - 1;
    var r := ExtendLast(tl);
    assert r == tl[..n] + [r[n]] && tl == tl[..n] + [tl[n]];
    RanAtAppend(tl[..n], r[n]);
    RanAtAppend(tl[..n], tl[n]);
  }

  /** When process `id` first got the CPU: the start of its first segment;
      `None` when it has none. */
  function FirstStart(tl: seq<Segment>, id: string): Option<int> {
    if tl == [] then None
    else if tl[0].pid == id then Some(tl[0].start)
    else FirstStart(tl[1..], id)
  }

  /** When process `id` last gave the CPU up: the end of its last segment;
      `None` when it has none. */
  function LastEndOf(tl: seq<Segment>, id: string): Option<int> {
    if tl == [] then None
    else if tl[|tl| - 1].pid == id then Some(tl[|tl| - 1].end)
    else LastEndOf(tl[..|tl| - 1], id)
  }

  /** `FirstStart` is the start of the process's first segment: no earlier
      segment is its, and only a process without segments has none. */
  lemma {:induction false} FirstStartIsFirst(tl: seq<Segment>, id: string)
    ensures FirstStart(tl, id).None? <==> forall i :: 0 <= i < |tl| ==> tl[i].pid != id
    ensures FirstStart(tl, id).Some? ==>
      exists i :: 0 <= i < |tl| && tl[i].pid == id && tl[i].start == FirstStart(tl, id).value && forall j :: 0 <= j < i ==> tl[j].pid != id
  {
    if tl != [] && tl[0].pid != id {
      var r := FirstStart(tl[1..], id);
      FirstStartIsFirst(tl[1..], id);
      assert forall i :: 1 <= i < |tl| ==> tl[i] == tl[1..][i - 1];
      if r.Some? {
        var i :| 0 <= i < |tl[1..]| && tl[1..][i].pid == id && tl[1..][i].start == r.value && forall j :: 0 <= j < i ==> tl[1..][j].pid != id;
        assert tl[i + 1] == tl[1..][i];
      }
    }
  }

  /** `LastEndOf` is the end of the process's last segment: no later
      segment is its, and only a process without segments has none. */
  lemma {:induction false} LastEndOfIsLast(tl: seq<Segment>, id: string)
    ensures LastEndOf(tl, id).None? <==> forall i :: 0 <= i < |tl| ==> tl[i].pid != id
    ensures LastEndOf(tl, id).Some? ==>
      exists i :: 0 <= i < |tl| && tl[i].pid == id && tl[i].end == LastEndOf(tl, id).value && forall j :: i < j < |tl| ==> tl[j].pid != id
  {
    if tl != [] && tl[|tl| - 1].pid != id {
      var p := tl[..|tl| - 1];
      var r := LastEndOf(p, id);
      LastEndOfIsLast(p, id);
      assert forall i :: 0 <= i < |p| ==> tl[i] == p[i];
      if r.Some? {
        var i :| 0 <= i < |p| && p[i].pid == id && p[i].end == r.value && forall j :: i < j < |p| ==> p[j].pid != id;
        assert tl[i] == p[i];
      }
    }
  }

  /** A process with a segment has a first start. */
  lemma FirstStartSome(tl: seq<Segment>, i: nat)
    requires i < |tl|
    ensures FirstStart(tl, tl[i].pid).Some?
  {
    FirstStartIsFirst(tl, tl[i].pid);
  }

  /** A segment appended to the timeline is the last run of its process,
      and the first one unless the process already ran; for every other
      process the first and last runs are as they were. */
  lemma {:induction false} SpansAppend(tl: seq<Segment>, g: Segment)
    ensures LastEndOf(tl + [g], g.pid) == Some(g.end)
    ensures FirstStart(tl + [g], g.pid) == if FirstStart(tl, g.pid).Some? then FirstStart(tl, g.pid) else Some(g.start)
    ensures forall id :: id != g.pid ==> FirstStart(tl + [g], id) == FirstStart(tl, id) && LastEndOf(tl + [g], id) == LastEndOf(tl, id)
  {
    assert (tl + [g])[..|tl|] == tl;
    forall id
      ensures FirstStart(tl + [g], id) == if FirstStart(tl, id).Some? || g.pid != id then FirstStart(tl, id) else Some(g.start)
    {
      FirstStartAppend(tl, g, id);
    }
  }

  lemma {:induction false} FirstStartAppend(tl: seq<Segment>, g: Segment, id: string)
    ensures FirstStart(tl + [g], id) == if FirstStart(tl, id).Some? || g.pid != id then FirstStart(tl, id) else Some(g.start)
  {
    if tl != [] {
      assert (tl + [g])[1..] == tl[1..] + [g];
      FirstStartAppend(tl[1..], g, id);
    }
  }

  /** Moving the end of the last segment keeps every process's first start
      and moves the last end of that segment's process. */
  lemma {:induction false} SpansExtend(tl: seq<Segment>)
    requires |tl| > 0
    ensures forall id :: FirstStart(ExtendLast(tl), id) == FirstStart(tl, id)
    ensures LastEndOf(ExtendLast(tl), tl[|tl| - 1].pid) == Some(tl[|tl| - 1].end + 1)
    ensures forall id :: id != tl[|tl| - 1].pid ==> LastEndOf(ExtendLast(tl), id) == LastEndOf(tl, id)
  {
    var n := |tl| - 1;
    var r := ExtendLast(tl);
    assert r == tl[..n] + [r[n]] && tl == tl[..n] + [tl[n]];
    SpansAppend(tl[..n], r[n]);
    SpansAppend(tl[..n], tl[n]);
  }

  /** Every record agrees with the Gantt chart: it started when its
      process's first segment starts and completed when its last one
      ends. */
  predicate Traced(fs: seq<Finished>, tl: seq<Segment>) {
    forall i :: 0 <= i < |fs| ==>
      FirstStart(tl, fs[i].proc.id) == Some(fs[i].start) && LastEndOf(tl, fs[i].proc.id) == Some(fs[i].completion)
  }

  /** The properties every algorithm's result has: each input process is
      reported exactly once and soundly, the timeline is ordered, accounts
      for exactly the CPU time the processes need, and `totalTime` is the
      end of its last segment (0 when nothing ran). */
  predicate Accounts(input: seq<Process>, r: Schedule) {
    && multiset(Procs(r.processes)) == multiset(input)
    && (forall i :: 0 <= i < |r.processes| ==> Sound(r.processes[i]) && r.processes[i].completion <= r.totalTime)
    && Ordered(r.timeline)
    && Busy(r.timeline) == TotalBurst(input)
    && r.totalTime == End(r.timeline)
  }
}

=== FILE: nonpreemptive.dfy ===
/** Shortest Job First (`sjf`) and non-preemptive Priority scheduling
    (`priorityNonPreemptive`), src/utils/schedulingAlgorithms.ts. Both
    repeat: among the remaining processes that have arrived, run the first
    one with the least key to completion; if none has arrived, jump the
    clock to the earliest remaining arrival. They differ only in the key:
    `burstTime`, or `priority || 0`. Processes are reported in completion
    order. */
module NonPreemptive {
  import opened Model
  import opened Sorting
  import opened Selection
  import opened Metrics

  datatype Rule = ShortestJob | HighestPriority

  /** The comparator's key. */
  function Key(rule: Rule): Process -> int {
    match rule
    case ShortestJob => Burst
    case HighestPriority => PriorityKey
  }

  /** The filter `p => p.arrivalTime <= currentTime`. */
  function ArrivedBy(clock: int): Process -> bool {
    (p: Process) => p.arrival <= clock
  }

  /** `Math.min(...remaining.map(p => p.arrivalTime))`. */
  function MinArrival(ps: seq<Process>): (m: int)
    requires |ps| > 0
    ensures exists i :: 0 <= i < |ps| && ps[i].arrival == m
    ensures forall i :: 0 <= i < |ps| ==> m <= ps[i].arrival
  {
    if |ps| == 1 then ps[0].arrival
    else
      var m := MinArrival(ps[1..]);
      assert forall i :: 1 <= i < |ps| ==> ps[i] == ps[1..][i - 1];
      if ps[0].arrival < m then ps[0].arrival else m
  }

  /** The loop's state: `remaining`, and the completed list, Gantt chart
      and clock. */
  datatype State = State(remaining: seq<Process>, t: Trace)

  /** Nothing has arrived: move the clock to the earliest arrival. */
  function Jump(s: State): State
    requires s.remaining != []
  {
    State(s.remaining, Trace(s.t.done, s.t.timeline, MinArrival(s.remaining)))
  }

  /** Runs `p` to completion from the current clock, as one segment. */
  function RunNext(t: Trace, p: Process): Trace {
    var end := t.clock + p.burst;
    Trace(t.done + [Complete(p, t.clock, end)], t.timeline + [Segment(p.id, t.clock, end)], end)
  }

  /** Run `remaining[i]` to completion from the current clock. */
  function Dispatch(s: State, i: nat): State
    requires i < |s.remaining|
  {
    State(Without(s.remaining, i), RunNext(s.t, s.remaining[i]))
  }

  /** One iteration of `while (remaining.length > 0)`. */
  function Step(rule: Rule, s: State): State
    requires s.remaining != []
  {
    if !HasCandidate(s.remaining, ArrivedBy(s.t.clock)) then Jump(s)
    else Dispatch(s, Pick(s.remaining, ArrivedBy(s.t.clock), Key(rule)))
  }

  /** A jump only moves the clock forward, to a time at which some
      remaining process has arrived and none arrived earlier. */
  lemma JumpAhead(s: State)
    requires s.remaining != [] && !HasCandidate(s.remaining, ArrivedBy(s.t.clock))
    ensures MinArrival(s.remaining) > s.t.clock
    ensures HasCandidate(s.remaining, ArrivedBy(MinArrival(s.remaining)))
    ensures forall q :: q in s.remaining ==> q.arrival >= MinArrival(s.remaining)
  {
    var m := MinArrival(s.remaining);
    var i :| 0 <= i < |s.remaining| && s.remaining[i].arrival == m;
    assert !ArrivedBy(s.t.clock)(s.remaining[i]);
    assert ArrivedBy(m)(s.remaining[i]);
  }

  /** A step either dispatches a process, or jumps the clock to a time at
      which one has arrived. */
  lemma StepProgress(rule: Rule, s: State)
    requires s.remaining != []
    ensures |Step(rule, s).remaining| < |s.remaining|
      || (&& Step(rule, s).remaining == s.remaining
          && !HasCandidate(s.remaining, ArrivedBy(s.t.clock))
          && HasCandidate(s.remaining, ArrivedBy(Step(rule, s).t.clock)))
  {
    if !HasCandidate(s.remaining, ArrivedBy(s.t.clock)) {
      JumpAhead(s);
    }
  }

  /** The loop, until nothing remains. */
  function Loop(rule: Rule, s: State): (r: State)
    ensures r.remaining == []
    decreases |s.remaining|, if HasCandidate(s.remaining, ArrivedBy(s.t.clock)) then 0 else 1
  {
    if s.remaining == [] then s
    else
      StepProgress(rule, s);
      Loop(rule, Step(rule, s))
  }

  function Init(input: seq<Process>): State {
    State(input, Trace([], [], 0))
  }

  /** `sjf` and `priorityNonPreemptive`. */
  function Simulate(rule: Rule, input: seq<Process>): Schedule {
    var s := Loop(rule, Init(input));
    Report(s.t.done, s.t.timeline, s.t.clock)
  }

  function Sjf(input: seq<Process>): Schedule { Simulate(ShortestJob, input) }

  function PriorityNonPreemptive(input: seq<Process>): Schedule { Simulate(HighestPriority, input) }

  // ----- invariants -----

  /** When the CPU became free before the `i`-th dispatch: the previous
      completion, or time 0. */
  function FreeAt(fs: seq<Finished>, i: nat): int
    requires i <= |fs|
  {
    if i == 0 then 0 else fs[i - 1].completion
  }

  /** When the last dispatched process ended. */
  function LastEnd(t: Trace): int {
    FreeAt(t.done, |t.done|)
  }

  /** Nothing is lost or invented: the remaining and the completed processes
      are together the input. */
  predicate Perm(input: seq<Process>, s: State) {
    multiset(s.remaining) + multiset(Procs(s.t.done)) == multiset(input)
  }

  /** Each completed process ran without preemption as the matching
      segment, no earlier than the CPU was free, and the clock only moved
      past the last one by a jump. */
  predicate Shape(t: Trace) {
    && |t.timeline| == |t.done|
    && (forall i :: 0 <= i < |t.done| ==> Served(t.done[i].proc, t.done[i], t.timeline[i]))
    && (forall i :: 0 <= i < |t.done| ==> t.done[i].start >= 0)
    && 0 <= LastEnd(t) <= t.clock
  }

  /** Once nothing remains, the clock is where the last process ended. */
  predicate Settled(s: State) {
    s.remaining == [] ==> s.t.clock == LastEnd(s.t)
  }

  predicate TimeOk(t: Trace) {
    && Ordered(t.timeline)
    && EndsBy(t.timeline, t.clock)
    && Busy(t.timeline) == TotalBurst(Procs(t.done))
    && (forall i :: 0 <= i < |t.done| ==> Sound(t.done[i]) && t.done[i].completion <= t.clock)
  }

  /** No dispatched process was passed over for one with a smaller key that
      had already arrived when it started. */
  predicate Greedy(rule: Rule, s: State) {
    && (forall i, j :: 0 <= i < j < |s.t.done| && s.t.done[j].proc.arrival <= s.t.done[i].start ==>
          Key(rule)(s.t.done[i].proc) <= Key(rule)(s.t.done[j].proc))
    && (forall i, q :: 0 <= i < |s.t.done| && q in s.remaining && q.arrival <= s.t.done[i].start ==>
          Key(rule)(s.t.done[i].proc) <= Key(rule)(q))
  }

  /** Neither the `i`-th dispatched process, nor any dispatched after it,
      nor any still remaining, had arrived before the `i`-th started. */
  predicate NoneWaitingBefore(done: seq<Finished>, remaining: seq<Process>, i: nat)
    requires i < |done|
  {
    && (forall j :: i <= j < |done| ==> done[j].proc.arrival >= done[i].start)
    && (forall q :: q in remaining ==> q.arrival >= done[i].start)
  }

  /** The CPU only idled while nothing was waiting: before a dispatch that
      did not follow straight on from the previous one (or from time 0), and
      before the clock if it is past the last completion. */
  ghost predicate IdleOnlyWhenEmpty(s: State) {
    && (s.t.clock > LastEnd(s.t) ==> forall q :: q in s.remaining ==> q.arrival >= s.t.clock)
    && (s.t.done != [] && s.t.done[0].start > 0 ==> NoneWaitingBefore(s.t.done, s.remaining, 0))
    && (forall h, i :: 0 <= h < i < |s.t.done| && i == h + 1 && s.t.done[i].start > s.t.done[h].completion ==>
          NoneWaitingBefore(s.t.done, s.remaining, i))
  }

  /** What running the next process appends, spelled out. */
  lemma RunNextParts(t: Trace, p: Process)
    ensures var t', k := RunNext(t, p), |t.done|;
      && |t'.done| == k + 1 && |t'.timeline| == |t.timeline| + 1
      && (forall j :: 0 <= j < k ==> t'.done[j] == t.done[j])
      && (forall j :: 0 <= j < |t.timeline| ==> t'.timeline[j] == t.timeline[j])
      && t'.done[k] == Complete(p, t.clock, t.clock + p.burst)
      && t'.clock == t.clock + p.burst
      && LastEnd(t) == FreeAt(t'.done, k)
  {
  }

  lemma DispatchPerm(input: seq<Process>, s: State, i: nat)
    requires i < |s.remaining| && Perm(input, s)
    ensures Perm(input, Dispatch(s, i))
  {
    var p := s.remaining[i];
    WithoutParts(s.remaining, i);
    ProcsAppend(s.t.done, Complete(p, s.t.clock, s.t.clock + p.burst));
  }

  lemma RunNextShape(t: Trace, p: Process)
    requires Shape(t) && PositiveBurst(p)
    ensures Shape(RunNext(t, p)) && RunNext(t, p).clock == LastEnd(RunNext(t, p))
  {
    var k := |t.done|;
    RunNextParts(t, p);
    assert Served(RunNext(t, p).done[k].proc, RunNext(t, p).done[k], RunNext(t, p).timeline[k]);
  }

  lemma RunNextTime(t: Trace, p: Process)
    requires TimeOk(t) && PositiveBurst(p) && p.arrival <= t.clock
    ensures TimeOk(RunNext(t, p))
  {
    var t', k := RunNext(t, p), |t.done|;
    RunNextParts(t, p);
    Push(t.timeline, Segment(p.id, t.clock, t.clock + p.burst), t.clock);
    assert t'.timeline == t.timeline + [Segment(p.id, t.clock, t.clock + p.burst)];
    ProcsAppend(t.done, t'.done[k]);
    assert t'.done == t.done + [t'.done[k]];
    SumAppend(Procs(t.done), [p], Burst);
  }

  lemma DispatchGreedy(rule: Rule, s: State, i: nat)
    requires i < |s.remaining| && Greedy(rule, s)
    requires forall q :: q in s.remaining && q.arrival <= s.t.clock ==> Key(rule)(s.remaining[i]) <= Key(rule)(q)
    ensures Greedy(rule, Dispatch(s, i))
  {
    RunNextParts(s.t, s.remaining[i]);
    WithoutParts(s.remaining, i);
    assert s.remaining[i] in s.remaining;
  }

  /** Dispatching a process that was waiting keeps an earlier dispatch's
      "nothing was waiting" fact. */
  lemma WaitingExtend(done: seq<Finished>, rest: seq<Process>, i: nat, f: Finished, rest': seq<Process>)
    requires i < |done| && NoneWaitingBefore(done, rest, i)
    requires f.proc in rest && forall q :: q in rest' ==> q in rest
    ensures NoneWaitingBefore(done + [f], rest', i)
  {
    assert forall j :: i <= j < |done| ==> (done + [f])[j] == done[j];
  }

  lemma DispatchIdle(s: State, i: nat)
    requires i < |s.remaining| && Shape(s.t) && IdleOnlyWhenEmpty(s)
    requires s.remaining[i].arrival <= s.t.clock
    ensures IdleOnlyWhenEmpty(Dispatch(s, i))
  {
    var p, done, k := s.remaining[i], s.t.done, |s.t.done|;
    var s' := Dispatch(s, i);
    var f := Complete(p, s.t.clock, s.t.clock + p.burst);
    RunNextParts(s.t, p);
    assert s'.t.done == done + [f];
    WithoutParts(s.remaining, i);
    assert p in s.remaining;
    forall h, j | 0 <= h < j < |s'.t.done| && j == h + 1 && s'.t.done[j].start > s'.t.done[h].completion
      ensures NoneWaitingBefore(s'.t.done, s'.remaining, j)
    {
      if j < k {
        WaitingExtend(done, s.remaining, j, f, s'.remaining);
      }
    }
    if done != [] && done[0].start > 0 {
      WaitingExtend(done, s.remaining, 0, f, s'.remaining);
    }
  }

  lemma JumpShape(s: State)
    requires s.remaining != [] && !HasCandidate(s.remaining, ArrivedBy(s.t.clock)) && Shape(s.t)
    ensures Shape(Jump(s).t)
  {
    JumpAhead(s);
  }

  lemma JumpTime(s: State)
    requires s.remaining != [] && !HasCandidate(s.remaining, ArrivedBy(s.t.clock)) && TimeOk(s.t)
    ensures TimeOk(Jump(s).t)
  {
    JumpAhead(s);
  }

  lemma JumpIdle(s: State)
    requires s.remaining != [] && !HasCandidate(s.remaining, ArrivedBy(s.t.clock)) && IdleOnlyWhenEmpty(s)
    ensures IdleOnlyWhenEmpty(Jump(s))
  {
    JumpAhead(s);
  }

  /** Everything the loop preserves, on valid input. */
  ghost predicate Inv(rule: Rule, input: seq<Process>, s: State) {
    && Perm(input, s)
    && Shape(s.t)
    && Settled(s)
    && TimeOk(s.t)
    && Greedy(rule, s)
    && IdleOnlyWhenEmpty(s)
  }

  lemma JumpInv(rule: Rule, input: seq<Process>, s: State)
    requires s.remaining != [] && !HasCandidate(s.remaining, ArrivedBy(s.t.clock)) && Inv(rule, input, s)
    ensures Inv(rule, input, Jump(s))
  {
    JumpShape(s);
    JumpTime(s);
    JumpIdle(s);
  }

  /** The process `Pick` chooses is valid, has arrived, and has a key no
      larger than any other arrived process. */
  lemma Picked(rule: Rule, input: seq<Process>, s: State)
    requires PositiveBursts(input) && Perm(input, s) && HasCandidate(s.remaining, ArrivedBy(s.t.clock))
    ensures var p := s.remaining[Pick(s.remaining, ArrivedBy(s.t.clock), Key(rule))];
      && PositiveBurst(p) && p.arrival <= s.t.clock
      && forall q :: q in s.remaining && q.arrival <= s.t.clock ==> Key(rule)(p) <= Key(rule)(q)
  {
    var p := s.remaining[Pick(s.remaining, ArrivedBy(s.t.clock), Key(rule))];
    assert p in multiset(input);
    forall q | q in s.remaining && q.arrival <= s.t.clock
      ensures Key(rule)(p) <= Key(rule)(q)
    {
      var m :| 0 <= m < |s.remaining| && s.remaining[m] == q;
      assert ArrivedBy(s.t.clock)(s.remaining[m]);
    }
  }

  lemma DispatchInv(rule: Rule, input: seq<Process>, s: State, i: nat)
    requires i < |s.remaining| && Inv(rule, input, s)
    requires PositiveBurst(s.remaining[i]) && s.remaining[i].arrival <= s.t.clock
    requires forall q :: q in s.remaining && q.arrival <= s.t.clock ==> Key(rule)(s.remaining[i]) <= Key(rule)(q)
    ensures Inv(rule, input, Dispatch(s, i))
  {
    DispatchPerm(input, s, i);
    RunNextShape(s.t, s.remaining[i]);
    RunNextTime(s.t, s.remaining[i]);
    DispatchGreedy(rule, s, i);
    DispatchIdle(s, i);
  }

  lemma StepInv(rule: Rule, input: seq<Process>, s: State)
    requires PositiveBursts(input) && s.remaining != [] && Inv(rule, input, s)
    ensures Inv(rule, input, Step(rule, s))
  {
    if !HasCandidate(s.remaining, ArrivedBy(s.t.clock)) {
      JumpInv(rule, input, s);
    } else {
      Picked(rule, input, s);
      DispatchInv(rule, input, s, Pick(s.remaining, ArrivedBy(s.t.clock), Key(rule)));
    }
  }

  lemma {:induction false} LoopInv(rule: Rule, input: seq<Process>, s: State)
    requires PositiveBursts(input) && Inv(rule, input, s)
    ensures Inv(rule, input, Loop(rule, s))
    decreases |s.remaining|, if HasCandidate(s.remaining, ArrivedBy(s.t.clock)) then 0 else 1
  {
    if s.remaining != [] {
      StepInv(rule, input, s);
      StepProgress(rule, s);
      LoopInv(rule, input, Step(rule, s));
    }
  }

  /** The invariant on the final state. */
  lemma Final(rule: Rule, input: seq<Process>)
    requires PositiveBursts(input)
    ensures Inv(rule, input, Loop(rule, Init(input)))
  {
    assert Procs([]) == [];
    assert Inv(rule, input, Init(input));
    LoopInv(rule, input, Init(input));
  }

  /** The part of the final invariant about the completed list and the
      timeline. */
  lemma FinalTrace(rule: Rule, input: seq<Process>)
    requires PositiveBursts(input)
    ensures var s := Loop(rule, Init(input));
      && multiset(Procs(s.t.done)) == multiset(input)
      && Shape(s.t) && TimeOk(s.t) && s.t.clock == LastEnd(s.t)
  {
    Final(rule, input);
  }

  // ----- properties of the result -----

  /** Every input process is reported once, soundly; the timeline is
      ordered and accounts for exactly the input's CPU time; each process
      ran without preemption as the matching segment. */
  lemma SimulateAccounts(rule: Rule, input: seq<Process>)
    requires PositiveBursts(input)
    ensures var r := Simulate(rule, input);
      && Accounts(input, r)
      && |r.timeline| == |r.processes|
      && (forall i :: 0 <= i < |r.processes| ==> Served(r.processes[i].proc, r.processes[i], r.timeline[i]))
  {
    FinalTrace(rule, input);
    TraceAccounts(input, Loop(rule, Init(input)).t);
  }

  /** A finished trace that served every input process reports them all. */
  lemma TraceAccounts(input: seq<Process>, t: Trace)
    requires multiset(Procs(t.done)) == multiset(input)
    requires Shape(t) && TimeOk(t) && t.clock == LastEnd(t)
    ensures var r := Report(t.done, t.timeline, t.clock);
      && Accounts(input, r)
      && |r.timeline| == |r.processes|
      && (forall i :: 0 <= i < |r.processes| ==> Served(r.processes[i].proc, r.processes[i], r.timeline[i]))
  {
    SumPermutation(Procs(t.done), input, Burst);
    if t.timeline != [] {
      var n := |t.done| - 1;
      assert t.timeline[n].end == t.done[n].completion;
    }
  }

  /** The selection rule, on the whole schedule: a process that had arrived
      by the time another was dispatched, and ran after it, does not have a
      smaller key. */
  lemma SimulateGreedy(rule: Rule, input: seq<Process>)
    requires PositiveBursts(input)
    ensures var r := Simulate(rule, input);
      forall i, j :: 0 <= i < j < |r.processes| && r.processes[j].proc.arrival <= r.processes[i].start ==>
        Key(rule)(r.processes[i].proc) <= Key(rule)(r.processes[j].proc)
  {
    Final(rule, input);
    assert Greedy(rule, Loop(rule, Init(input)));
  }

  /** The CPU idles only while nothing is waiting: no dispatch starts before
      the CPU is free, and when one starts later than that, no process
      dispatched from then on had arrived earlier. */
  lemma SimulateIdle(rule: Rule, input: seq<Process>)
    requires PositiveBursts(input)
    ensures var r := Simulate(rule, input);
      forall i :: 0 <= i < |r.processes| ==>
        && r.processes[i].start >= FreeAt(r.processes, i)
        && (r.processes[i].start > FreeAt(r.processes, i) ==>
              forall j :: i <= j < |r.processes| ==> r.processes[j].proc.arrival >= r.processes[i].start)
  {
    Final(rule, input);
    var s := Loop(rule, Init(input));
    var done := s.t.done;
    assert Shape(s.t) && TimeOk(s.t) && IdleOnlyWhenEmpty(s);
    forall i | 0 <= i < |done|
      ensures done[i].start >= FreeAt(done, i)
      ensures done[i].start > FreeAt(done, i) ==> NoneWaitingBefore(done, s.remaining, i)
    {
      if i > 0 {
        assert s.t.timeline[i - 1].end <= s.t.timeline[i].start;
        assert Served(done[i - 1].proc, done[i - 1], s.t.timeline[i - 1]);
        assert Served(done[i].proc, done[i], s.t.timeline[i]);
      }
    }
  }

  /** Each dispatch takes the element the source's `filter`, stable `sort`
      and `[0]` would. */
  lemma DispatchIsSortHead(rule: Rule, s: State)
    requires s.remaining != [] && HasCandidate(s.remaining, ArrivedBy(s.t.clock))
    ensures var s' := Step(rule, s);
      && |s'.t.done| == |s.t.done| + 1
      && |Filter(s.remaining, ArrivedBy(s.t.clock))| > 0
      && s'.t.done[|s.t.done|].proc == SortBy(Filter(s.remaining, ArrivedBy(s.t.clock)), Key(rule))[0]
  {
    PickIsSortHead(s.remaining, ArrivedBy(s.t.clock), Key(rule));
  }
}

=== FILE: preemptive.dfy ===
/** Shortest Remaining Time First (`srtf`) and preemptive Priority
    scheduling (`priorityPreemptive`), src/utils/schedulingAlgorithms.ts.
    Both advance the clock one unit per iteration: among the jobs that have
    arrived and still need CPU time, the first with the least key runs for
    one unit; if there is none the CPU idles for a unit. A unit run by the
    process that also ran the unit before extends the last Gantt segment.
    The loop ends once every job has completed; processes are reported in
    input order. */
module Preemptive {
  import opened Wrappers
  import opened Model
  import opened Sorting
  import opened Selection
  import opened Metrics
  import opened Jobs

  datatype Rule = ShortestRemaining | HighestPriority

  /** `priority || 0` of the job's process. */
  function JobPriority(j: Job): int { PriorityKey(j.proc) }

  /** The comparator's key: `remainingTime`, or `priority || 0`. */
  function Key(rule: Rule): Job -> int {
    match rule
    case ShortestRemaining => Rem
    case HighestPriority => JobPriority
  }

  /** The filter `p => p.arrivalTime <= currentTime && p.remainingTime > 0`. */
  function EligibleAt(clock: int): Job -> bool {
    (j: Job) => j.proc.arrival <= clock && j.rem > 0
  }

  /** The loop's state. `completed` is the length of the source's
      `completed` array, which only ever grows and is only read for its
      length. */
  datatype State = State(jobs: seq<Job>, completed: int, clock: int, timeline: seq<Segment>)

  /** Records that process `id` ran during `[t, t + 1)`: the last segment
      grows when it is the same process's and ends at `t`, otherwise a new
      segment starts. */
  function Record(tl: seq<Segment>, id: string, t: int): seq<Segment> {
    if tl != [] && tl[|tl| - 1].pid == id && tl[|tl| - 1].end == t then ExtendLast(tl)
    else tl + [Segment(id, t, t + 1)]
  }

  /** One iteration of `while (completed.length < processes.length)`. */
  function Tick(rule: Rule, s: State): State {
    if !HasCandidate(s.jobs, EligibleAt(s.clock)) then
      State(s.jobs, s.completed, s.clock + 1, s.timeline)
    else
      var k := Pick(s.jobs, EligibleAt(s.clock), Key(rule));
      var j := Run(s.jobs[k], s.clock, 1);
      State(s.jobs[k := j], s.completed + DoneFlag(j), s.clock + 1, Record(s.timeline, s.jobs[k].proc.id, s.clock))
  }

  /** The latest arrival. */
  function Horizon(ps: seq<Process>): (h: int)
    ensures forall i :: 0 <= i < |ps| ==> ps[i].arrival <= h
  {
    if ps == [] then 0
    else
      var h := Horizon(ps[1..]);
      assert forall i :: 1 <= i < |ps| ==> ps[i] == ps[1..][i - 1];
      if ps[0].arrival < h then h else ps[0].arrival
  }

  /** What the loop's termination rests on: no remaining time is negative
      and `completed` counts exactly the finished jobs. */
  predicate Wf(s: State) {
    && (forall k :: 0 <= k < |s.jobs| ==> s.jobs[k].rem >= 0)
    && s.completed == Sum(s.jobs, DoneFlag)
  }

  /** Work left plus the idle units that can still precede the last
      arrival. */
  function Measure(s: State): int {
    var h := Horizon(JobProcs(s.jobs));
    TotalRem(s.jobs) + (if s.clock < h then h - s.clock else 0)
  }

  /** Running the picked job for one unit keeps the state well formed, the
      processes unchanged and the remaining work one unit smaller. */
  lemma RunWf(s: State, k: nat)
    requires Wf(s) && k < |s.jobs| && s.jobs[k].rem >= 1
    ensures var j := Run(s.jobs[k], s.clock, 1);
      && Wf(State(s.jobs[k := j], s.completed + DoneFlag(j), s.clock + 1, Record(s.timeline, s.jobs[k].proc.id, s.clock)))
      && TotalRem(s.jobs[k := j]) == TotalRem(s.jobs) - 1
      && JobProcs(s.jobs[k := j]) == JobProcs(s.jobs)
  {
    var j := Run(s.jobs[k], s.clock, 1);
    SumUpdate(s.jobs, k, j, Rem);
    SumUpdate(s.jobs, k, j, DoneFlag);
  }

  /** Every iteration the loop makes keeps the state well formed and
      shrinks the measure, which never goes below 0. */
  lemma TickProgress(rule: Rule, s: State)
    requires Wf(s) && s.completed < |s.jobs|
    ensures Wf(Tick(rule, s))
    ensures JobProcs(Tick(rule, s).jobs) == JobProcs(s.jobs)
    ensures 0 <= Measure(Tick(rule, s)) < Measure(s)
  {
    if HasCandidate(s.jobs, EligibleAt(s.clock)) {
      RunProgress(rule, s);
    } else {
      IdleProgress(s);
    }
  }

  lemma RunProgress(rule: Rule, s: State)
    requires Wf(s) && HasCandidate(s.jobs, EligibleAt(s.clock))
    ensures Wf(Tick(rule, s))
    ensures JobProcs(Tick(rule, s).jobs) == JobProcs(s.jobs)
    ensures 0 <= Measure(Tick(rule, s)) < Measure(s)
  {
    var k := Pick(s.jobs, EligibleAt(s.clock), Key(rule));
    assert EligibleAt(s.clock)(s.jobs[k]);
    RunWf(s, k);
    SumNonNegative(Tick(rule, s).jobs, Rem);
  }

  /** An idle unit is only possible while some job waits for its arrival. */
  lemma IdleProgress(s: State)
    requires Wf(s) && s.completed < |s.jobs| && !HasCandidate(s.jobs, EligibleAt(s.clock))
    ensures var s' := State(s.jobs, s.completed, s.clock + 1, s.timeline);
      Wf(s') && 0 <= Measure(s') < Measure(s)
  {
    DoneCount(s.jobs);
    var k :| 0 <= k < |s.jobs| && s.jobs[k].rem != 0;
    assert !EligibleAt(s.clock)(s.jobs[k]);
    assert JobProcs(s.jobs)[k].arrival <= Horizon(JobProcs(s.jobs));
    SumNonNegative(s.jobs, Rem);
  }

  /** The loop, until `completed` reaches the number of processes. */
  function Loop(rule: Rule, s: State): (r: State)
    requires Wf(s)
    ensures Wf(r) && r.completed >= |r.jobs|
    ensures JobProcs(r.jobs) == JobProcs(s.jobs)
    decreases Measure(s)
  {
    if s.completed >= |s.jobs| then s
    else
      TickProgress(rule, s);
      Loop(rule, Tick(rule, s))
  }

  function Init(input: seq<Process>): (s: State)
    requires PositiveBursts(input)
    ensures Wf(s)
  {
    var js := FreshAll(input);
    assert forall k :: 0 <= k < |js| ==> input[k] in input;
    DoneCount(js);
    State(js, 0, 0, [])
  }

  // ----- invariants -----

  /** The per-job bookkeeping is consistent with the clock, which never
      went below 0, and the jobs are the input's processes in input
      order. */
  predicate Base(input: seq<Process>, s: State) {
    && Wf(s)
    && JobProcs(s.jobs) == input
    && AllOk(s.jobs, s.clock)
    && s.clock >= 0
  }

  /** The timeline is ordered, one segment per contiguous run, ends by
      the clock, and holds exactly the CPU time already given; once every
      job is complete it ends at the clock. */
  predicate TimeOk(input: seq<Process>, s: State) {
    && Ordered(s.timeline)
    && Maximal(s.timeline)
    && EndsBy(s.timeline, s.clock)
    && Busy(s.timeline) + TotalRem(s.jobs) == TotalBurst(input)
    && (s.completed < |s.jobs| || End(s.timeline) == s.clock)
  }

  lemma InitOk(input: seq<Process>)
    requires PositiveBursts(input)
    ensures Base(input, Init(input)) && TimeOk(input, Init(input))
  {
    var js := FreshAll(input);
    assert forall k :: 0 <= k < |js| ==> input[k] in input;
    assert JobProcs(js) == input;
    SumAppend([], [], Length);
    assert TotalRem(js) == TotalBurst(input) by {
      FreshRem(input);
    }
  }

  /** A unit of CPU time recorded at the clock keeps the timeline ordered
      and adds one unit to it, and to the process that ran. The unit joins
      the last segment exactly when that segment is the same process's run
      up to the clock, so every segment stays a whole contiguous run. */
  lemma RecordOk(tl: seq<Segment>, id: string, t: int)
    requires Ordered(tl) && EndsBy(tl, t)
    ensures Ordered(Record(tl, id, t)) && EndsBy(Record(tl, id, t), t + 1) && End(Record(tl, id, t)) == t + 1
    ensures Busy(Record(tl, id, t)) == Busy(tl) + 1
    ensures forall other :: BusyFor(Record(tl, id, t), other) == BusyFor(tl, other) + (if other == id then 1 else 0)
    ensures |Record(tl, id, t)| == if tl != [] && tl[|tl| - 1].pid == id && tl[|tl| - 1].end == t then |tl| else |tl| + 1
    ensures Maximal(tl) ==> Maximal(Record(tl, id, t))
    ensures forall i :: 0 <= i < |tl| - 1 ==> Record(tl, id, t)[i] == tl[i]
    ensures tl != [] ==> Record(tl, id, t)[|tl| - 1].pid == tl[|tl| - 1].pid && Record(tl, id, t)[|tl| - 1].start == tl[|tl| - 1].start
    ensures forall u, other :: RanAt(Record(tl, id, t), other, u) <==> RanAt(tl, other, u) || (u == t && other == id)
  {
    if tl != [] && tl[|tl| - 1].pid == id && tl[|tl| - 1].end == t {
      Extend(tl, t);
    } else {
      Push(tl, Segment(id, t, t + 1), t);
    }
    RecordMaximal(tl, id, t);
    RecordRanAt(tl, id, t);
  }

  /** Recording a unit at `t` adds exactly the moment `t`, for `id`, to
      when each process held the CPU. */
  lemma RecordRanAt(tl: seq<Segment>, id: string, t: int)
    requires Ordered(tl) && EndsBy(tl, t)
    ensures forall i :: 0 <= i < |tl| - 1 ==> Record(tl, id, t)[i] == tl[i]
    ensures tl != [] ==> Record(tl, id, t)[|tl| - 1].pid == tl[|tl| - 1].pid && Record(tl, id, t)[|tl| - 1].start == tl[|tl| - 1].start
    ensures forall u, other :: RanAt(Record(tl, id, t), other, u) <==> RanAt(tl, other, u) || (u == t && other == id)
  {
    if tl != [] && tl[|tl| - 1].pid == id && tl[|tl| - 1].end == t {
      assert Record(tl, id, t) == ExtendLast(tl);
      RanAtExtend(tl, t);
    } else {
      var g := Segment(id, t, t + 1);
      assert Record(tl, id, t) == tl + [g];
      RanAtAppend(tl, g);
    }
  }

  /** The unit recorded for `id` at `t` is the last time it holds the CPU
      so far, and the first unless it ran before; every other process's
      first and last moments on the CPU are as they were. */
  lemma RecordSpans(tl: seq<Segment>, id: string, t: int)
    ensures FirstStart(Record(tl, id, t), id) == if FirstStart(tl, id).Some? then FirstStart(tl, id) else Some(t)
    ensures LastEndOf(Record(tl, id, t), id) == Some(t + 1)
    ensures forall other :: other != id ==>
      FirstStart(Record(tl, id, t), other) == FirstStart(tl, other) && LastEndOf(Record(tl, id, t), other) == LastEndOf(tl, other)
  {
    if tl != [] && tl[|tl| - 1].pid == id && tl[|tl| - 1].end == t {
      assert Record(tl, id, t) == ExtendLast(tl);
      SpansExtend(tl);
      FirstStartSome(tl, |tl| - 1);
    } else {
      assert Record(tl, id, t) == tl + [Segment(id, t, t + 1)];
      SpansAppend(tl, Segment(id, t, t + 1));
    }
  }

  lemma RecordMaximal(tl: seq<Segment>, id: string, t: int)
    requires EndsBy(tl, t)
    ensures |Record(tl, id, t)| == if tl != [] && tl[|tl| - 1].pid == id && tl[|tl| - 1].end == t then |tl| else |tl| + 1
    ensures Maximal(tl) ==> Maximal(Record(tl, id, t))
  {
    if Maximal(tl) {
      if tl != [] && tl[|tl| - 1].pid == id && tl[|tl| - 1].end == t {
        ExtendMaximal(tl);
      } else {
        PushMaximal(tl, id, t);
      }
    }
  }

  /** Moving the end of the last segment cannot join it to the one before. */
  lemma ExtendMaximal(tl: seq<Segment>)
    requires |tl| > 0 && Maximal(tl)
    ensures Maximal(ExtendLast(tl))
  {
    var r := ExtendLast(tl);
    forall i | 0 <= i < |r| - 1
      ensures r[i].pid != r[i + 1].pid || r[i].end < r[i + 1].start
    {
      assert r[i] == tl[..|tl| - 1][i] == tl[i];
    }
  }

  /** A new segment for a unit that does not continue the last segment's
      run starts after it ended, or belongs to another process. */
  lemma PushMaximal(tl: seq<Segment>, id: string, t: int)
    requires EndsBy(tl, t) && Maximal(tl)
    requires !(tl != [] && tl[|tl| - 1].pid == id && tl[|tl| - 1].end == t)
    ensures Maximal(tl + [Segment(id, t, t + 1)])
  {
    var r := tl + [Segment(id, t, t + 1)];
    forall i | 0 <= i < |r| - 1
      ensures r[i].pid != r[i + 1].pid || r[i].end < r[i + 1].start
    {
      if i < |tl| - 1 {
        assert r[i] == tl[i] && r[i + 1] == tl[i + 1];
      }
    }
  }

  lemma TickBase(rule: Rule, input: seq<Process>, s: State)
    requires Base(input, s) && s.completed < |s.jobs|
    ensures Base(input, Tick(rule, s))
  {
    TickProgress(rule, s);
    if HasCandidate(s.jobs, EligibleAt(s.clock)) {
      var k := Pick(s.jobs, EligibleAt(s.clock), Key(rule));
      assert EligibleAt(s.clock)(s.jobs[k]);
      RunAllOk(s.jobs, k, s.clock, 1);
    } else {
      LaterOk(s.jobs, s.clock, s.clock + 1);
    }
  }

  lemma TickTime(rule: Rule, input: seq<Process>, s: State)
    requires Base(input, s) && TimeOk(input, s) && s.completed < |s.jobs|
    ensures TimeOk(input, Tick(rule, s))
  {
    if HasCandidate(s.jobs, EligibleAt(s.clock)) {
      var k := Pick(s.jobs, EligibleAt(s.clock), Key(rule));
      assert EligibleAt(s.clock)(s.jobs[k]);
      RunWf(s, k);
      RecordOk(s.timeline, s.jobs[k].proc.id, s.clock);
    }
  }

  /** Both invariants, to the end of the loop. */
  lemma {:induction false} LoopOk(rule: Rule, input: seq<Process>, s: State)
    requires Base(input, s) && TimeOk(input, s)
    ensures Base(input, Loop(rule, s)) && TimeOk(input, Loop(rule, s))
    decreases Measure(s)
  {
    if s.completed < |s.jobs| {
      TickProgress(rule, s);
      TickBase(rule, input, s);
      TickTime(rule, input, s);
      LoopOk(rule, input, Tick(rule, s));
    }
  }

  /** At the end every job has completed, consistently with the clock. */
  lemma Final(rule: Rule, input: seq<Process>)
    requires PositiveBursts(input)
    ensures var s := Loop(rule, Init(input));
      && Base(input, s) && TimeOk(input, s)
      && forall k :: 0 <= k < |s.jobs| ==> s.jobs[k].rem == 0
  {
    InitOk(input);
    LoopOk(rule, input, Init(input));
    var s := Loop(rule, Init(input));
    DoneCount(s.jobs);
  }

  /** `srtf` and `priorityPreemptive`: the processes come back in input
      order. */
  function Simulate(rule: Rule, input: seq<Process>): (r: Schedule)
    requires PositiveBursts(input)
    ensures Procs(r.processes) == input
  {
    var s := Loop(rule, Init(input));
    Final(rule, input);
    Report(ReportAll(s.jobs, s.clock), s.timeline, s.clock)
  }

  function Srtf(input: seq<Process>): Schedule
    requires PositiveBursts(input)
  {
    Simulate(ShortestRemaining, input)
  }

  function PriorityPreemptive(input: seq<Process>): Schedule
    requires PositiveBursts(input)
  {
    Simulate(HighestPriority, input)
  }

  // ----- properties -----

  /** Every process is reported once, soundly; the timeline is ordered,
      holds exactly the CPU time the processes need, and ends at
      `totalTime`. */
  lemma SimulateAccounts(rule: Rule, input: seq<Process>)
    requires PositiveBursts(input)
    ensures Accounts(input, Simulate(rule, input))
    ensures Maximal(Simulate(rule, input).timeline)
  {
    Final(rule, input);
    var s := Loop(rule, Init(input));
    SumNonNegative(s.jobs, Rem);
    assert TotalRem(s.jobs) == 0 by {
      SumZero(s.jobs);
    }
  }

  /** When ids are distinct, a unit recorded for one process leaves every
      other process's share of the timeline as it was. */
  lemma TickConserved(rule: Rule, input: seq<Process>, s: State)
    requires Base(input, s) && TimeOk(input, s) && DistinctIds(input) && Conserved(s.jobs, s.timeline)
    ensures Conserved(Tick(rule, s).jobs, Tick(rule, s).timeline)
  {
    if HasCandidate(s.jobs, EligibleAt(s.clock)) {
      var k := Pick(s.jobs, EligibleAt(s.clock), Key(rule));
      assert EligibleAt(s.clock)(s.jobs[k]);
      var id := s.jobs[k].proc.id;
      RecordOk(s.timeline, id, s.clock);
      var s' := Tick(rule, s);
      forall i | 0 <= i < |s'.jobs| && i != k
        ensures s'.jobs[i].proc.id != id
      {
        assert input[i] == s.jobs[i].proc && input[k] == s.jobs[k].proc;
      }
    }
  }

  lemma {:induction false} LoopConserved(rule: Rule, input: seq<Process>, s: State)
    requires Base(input, s) && TimeOk(input, s) && DistinctIds(input) && Conserved(s.jobs, s.timeline)
    ensures Conserved(Loop(rule, s).jobs, Loop(rule, s).timeline)
    decreases Measure(s)
  {
    if s.completed < |s.jobs| {
      TickProgress(rule, s);
      TickBase(rule, input, s);
      TickTime(rule, input, s);
      TickConserved(rule, input, s);
      LoopConserved(rule, input, Tick(rule, s));
    }
  }

  /** With distinct ids, the Gantt chart gives every process exactly its
      burst. */
  lemma SimulateConserved(rule: Rule, input: seq<Process>)
    requires PositiveBursts(input) && DistinctIds(input)
    ensures var r := Simulate(rule, input);
      forall i :: 0 <= i < |input| ==> BusyFor(r.timeline, input[i].id) == input[i].burst
  {
    InitOk(input);
    assert Conserved(Init(input).jobs, []);
    LoopConserved(rule, input, Init(input));
    Final(rule, input);
    var s := Loop(rule, Init(input));
    assert Simulate(rule, input).timeline == s.timeline;
    ConservedDone(input, s.jobs, s.timeline);
  }

  /** Once no job needs more time, conservation gives each its burst. */
  lemma ConservedDone(input: seq<Process>, js: seq<Job>, tl: seq<Segment>)
    requires JobProcs(js) == input && Conserved(js, tl)
    requires forall k :: 0 <= k < |js| ==> js[k].rem == 0
    ensures forall i :: 0 <= i < |input| ==> BusyFor(tl, input[i].id) == input[i].burst
  {
    forall i | 0 <= i < |input|
      ensures BusyFor(tl, input[i].id) == input[i].burst
    {
      assert js[i].proc == input[i];
    }
  }

  /** Each tick runs the job the source's `filter`, stable `sort` and `[0]`
      would choose, for one unit. */
  lemma TickIsSortHead(rule: Rule, s: State)
    requires Wf(s) && HasCandidate(s.jobs, EligibleAt(s.clock))
    ensures var k := Pick(s.jobs, EligibleAt(s.clock), Key(rule));
      && |Filter(s.jobs, EligibleAt(s.clock))| > 0
      && s.jobs[k] == SortBy(Filter(s.jobs, EligibleAt(s.clock)), Key(rule))[0]
      && Tick(rule, s).jobs[k].rem == s.jobs[k].rem - 1
      && Tick(rule, s).jobs[k].start == (if s.jobs[k].start.None? then Some(s.clock) else s.jobs[k].start)
      && Tick(rule, s).jobs[k].completion == (if s.jobs[k].rem == 1 then Some(s.clock + 1) else s.jobs[k].completion)
      && (forall i :: 0 <= i < |s.jobs| && i != k ==> Tick(rule, s).jobs[i] == s.jobs[i])
      && Tick(rule, s).timeline == Record(s.timeline, s.jobs[k].proc.id, s.clock)
      && Tick(rule, s).clock == s.clock + 1
  {
    PickIsSortHead(s.jobs, EligibleAt(s.clock), Key(rule));
  }

  /** A tick with no arrived job that still needs time only moves the
      clock: no job and no segment changes. */
  lemma TickIdle(rule: Rule, s: State)
    requires forall k :: 0 <= k < |s.jobs| ==> s.jobs[k].proc.arrival > s.clock || s.jobs[k].rem <= 0
    ensures Tick(rule, s).jobs == s.jobs && Tick(rule, s).timeline == s.timeline
    ensures Tick(rule, s).clock == s.clock + 1 && Tick(rule, s).completed == s.completed
  {
    assert !HasCandidate(s.jobs, EligibleAt(s.clock));
  }

  // ----- start and completion times, for distinct ids -----

  /** With distinct ids, each tick keeps every job's `startTime` and
      `completionTime` equal to its process's first and last moments on the
      chart. */
  lemma TickCharted(rule: Rule, input: seq<Process>, s: State)
    requires Base(input, s) && DistinctIds(input) && Charted(s.jobs, s.timeline)
    ensures Charted(Tick(rule, s).jobs, Tick(rule, s).timeline)
  {
    if HasCandidate(s.jobs, EligibleAt(s.clock)) {
      var k := Pick(s.jobs, EligibleAt(s.clock), Key(rule));
      assert EligibleAt(s.clock)(s.jobs[k]) && JobOk(s.jobs[k], s.clock);
      RecordSpans(s.timeline, s.jobs[k].proc.id, s.clock);
      RunCharted(s.jobs, k, s.clock, 1, s.timeline, Record(s.timeline, s.jobs[k].proc.id, s.clock));
    }
  }

  lemma {:induction false} LoopCharted(rule: Rule, input: seq<Process>, s: State)
    requires Base(input, s) && DistinctIds(input) && Charted(s.jobs, s.timeline)
    ensures Charted(Loop(rule, s).jobs, Loop(rule, s).timeline)
    decreases Measure(s)
  {
    if s.completed < |s.jobs| {
      TickProgress(rule, s);
      TickBase(rule, input, s);
      TickCharted(rule, input, s);
      LoopCharted(rule, input, Tick(rule, s));
    }
  }

  /** With distinct ids, every reported `startTime` is the start of the
      process's first Gantt segment and every `completionTime` the end of
      its last one. */
  lemma SimulateTraced(rule: Rule, input: seq<Process>)
    requires PositiveBursts(input) && DistinctIds(input)
    ensures Traced(Simulate(rule, input).processes, Simulate(rule, input).timeline)
  {
    FinalCharted(rule, input);
    var s := Loop(rule, Init(input));
    assert Simulate(rule, input).processes == ReportAll(s.jobs, s.clock);
    ReportTraced(s.jobs, s.clock, s.timeline);
  }

  /** At the end every job has started and completed, in agreement with
      the chart. */
  lemma FinalCharted(rule: Rule, input: seq<Process>)
    requires PositiveBursts(input) && DistinctIds(input)
    ensures var s := Loop(rule, Init(input));
      && Charted(s.jobs, s.timeline)
      && forall k :: 0 <= k < |s.jobs| ==> s.jobs[k].start.Some? && s.jobs[k].completion.Some?
  {
    InitOk(input);
    FreshCharted(input);
    LoopCharted(rule, input, Init(input));
    Final(rule, input);
    var s := Loop(rule, Init(input));
    assert forall k :: 0 <= k < |s.jobs| ==> JobOk(s.jobs[k], s.clock);
  }
}

=== FILE: preemptive_as_written.dfy ===
/** The Gantt-chart bookkeeping of `srtf` and `priorityPreemptive`
    exactly as src/utils/schedulingAlgorithms.ts writes it. The source
    remembers `lastProcessId`, starting from '', and extends the last
    segment whenever the chosen process has that id, instead of checking
    that the last segment is this process's run of the previous unit. Two
    inputs show the difference: a process whose id is '' crashes the first
    unit it runs (there is no last segment to extend), and two processes
    sharing an id stretch one segment over an idle gap. `Preemptive.Tick`
    records units by the intended rule; on inputs whose ids are distinct and
    non-empty the two agree. */
module PreemptiveAsWritten {
  import opened Wrappers
  import opened Model
  import opened Selection
  import opened Metrics
  import opened Jobs
  import opened Preemptive

  /** The loop state with `lastProcessId`. */
  datatype RawState = RawState(jobs: seq<Job>, completed: int, clock: int, timeline: seq<Segment>, lastId: string)

  /** Reading `endTime` of `ganttChart[-1]`, which is `undefined`, throws a
      TypeError. */
  datatype Crash = EmptyGanttChart

  function Cook(s: RawState): State {
    State(s.jobs, s.completed, s.clock, s.timeline)
  }

  /** One iteration as written. */
  function TickAsWritten(rule: Rule, s: RawState): Result<RawState, Crash> {
    if !HasCandidate(s.jobs, EligibleAt(s.clock)) then
      Ok(RawState(s.jobs, s.completed, s.clock + 1, s.timeline, s.lastId))
    else
      var k := Pick(s.jobs, EligibleAt(s.clock), Key(rule));
      var j := Run(s.jobs[k], s.clock, 1);
      var id := s.jobs[k].proc.id;
      if s.lastId != id then
        Ok(RawState(s.jobs[k := j], s.completed + DoneFlag(j), s.clock + 1,
                    s.timeline + [Segment(id, s.clock, s.clock + 1)], id))
      else if s.timeline == [] then
        Err(EmptyGanttChart)
      else
        Ok(RawState(s.jobs[k := j], s.completed + DoneFlag(j), s.clock + 1, ExtendLast(s.timeline), s.lastId))
  }

  /** Apart from the Gantt chart, an iteration as written does what
      `Preemptive.Tick` does. */
  lemma TickAsWrittenJobs(rule: Rule, s: RawState)
    requires TickAsWritten(rule, s).Ok?
    ensures var c, t := Cook(TickAsWritten(rule, s).value), Tick(rule, Cook(s));
      c.jobs == t.jobs && c.completed == t.completed && c.clock == t.clock
  {
  }

  function LoopAsWritten(rule: Rule, s: RawState): Result<RawState, Crash>
    requires Wf(Cook(s))
    decreases Measure(Cook(s))
  {
    if s.completed >= |s.jobs| then Ok(s)
    else
      match TickAsWritten(rule, s)
      case Err(e) => Err(e)
      case Ok(s') =>
        TickAsWrittenJobs(rule, s);
        TickProgress(rule, Cook(s));
        LoopAsWritten(rule, s')
  }

  /** A completed run as written ends with the jobs and clock of
      `Preemptive.Loop`. */
  lemma {:induction false} LoopAsWrittenJobs(rule: Rule, s: RawState)
    requires Wf(Cook(s)) && LoopAsWritten(rule, s).Ok?
    ensures var c, t := Cook(LoopAsWritten(rule, s).value), Loop(rule, Cook(s));
      c.jobs == t.jobs && c.completed == t.completed && c.clock == t.clock
    decreases Measure(Cook(s))
  {
    if s.completed < |s.jobs| {
      var s' := TickAsWritten(rule, s).value;
      TickAsWrittenJobs(rule, s);
      TickProgress(rule, Cook(s));
      LoopAsWrittenJobs(rule, s');
      LoopIgnoresTimeline(rule, Cook(s'), Tick(rule, Cook(s)));
    }
  }

  /** The jobs and clock the loop ends with do not depend on the Gantt
      chart it starts with. */
  lemma {:induction false} LoopIgnoresTimeline(rule: Rule, a: State, b: State)
    requires Wf(a) && a.jobs == b.jobs && a.completed == b.completed && a.clock == b.clock
    ensures Wf(b)
    ensures var x, y := Loop(rule, a), Loop(rule, b);
      x.jobs == y.jobs && x.completed == y.completed && x.clock == y.clock
    decreases Measure(a)
  {
    if a.completed < |a.jobs| {
      TickProgress(rule, a);
      LoopIgnoresTimeline(rule, Tick(rule, a), Tick(rule, b));
    }
  }

  /** `srtf` and `priorityPreemptive` as written. */
  function SimulateAsWritten(rule: Rule, input: seq<Process>): Result<Schedule, Crash>
    requires PositiveBursts(input)
  {
    var start := RawState(Init(input).jobs, 0, 0, [], "");
    assert Cook(start) == Init(input);
    match LoopAsWritten(rule, start)
    case Err(e) => Err(e)
    case Ok(s) =>
      LoopAsWrittenJobs(rule, start);
      Final(rule, input);
      Ok(Report(ReportAll(s.jobs, s.clock), s.timeline, s.clock))
  }

  // ----- where the two agree -----

  /** The id of the last segment's process; '' for an empty chart, the
      value `lastProcessId` starts with. */
  function LastPid(tl: seq<Segment>): string {
    if tl == [] then "" else tl[|tl| - 1].pid
  }

  /** The as-written state that goes with a corrected one. */
  function RawOf(s: State): RawState {
    RawState(s.jobs, s.completed, s.clock, s.timeline, LastPid(s.timeline))
  }

  predicate NamedIds(ps: seq<Process>) {
    forall p :: p in ps ==> p.id != ""
  }

  /** The last segment ends at the clock, unless every process with its id
      has finished. */
  predicate Chain(s: State) {
    s.timeline != [] ==>
      || End(s.timeline) == s.clock
      || forall k :: 0 <= k < |s.jobs| && s.jobs[k].proc.id == LastPid(s.timeline) ==> s.jobs[k].rem == 0
  }

  /** Everything the corrected loop keeps that the agreement rests on. */
  predicate Agreeable(input: seq<Process>, s: State) {
    && Base(input, s) && TimeOk(input, s)
    && DistinctIds(input) && NamedIds(input)
    && Conserved(s.jobs, s.timeline) && Chain(s)
  }

  /** The last segment's process has had at least one unit. */
  lemma BusyForLast(tl: seq<Segment>)
    requires Ordered(tl) && tl != []
    ensures BusyFor(tl, LastPid(tl)) >= 1
  {
    var n := |tl| - 1;
    assert tl == tl[..n] + [tl[n]];
    SumAppend(tl[..n], [tl[n]], LengthOf(tl[n].pid));
    SumNonNegative(tl[..n], LengthOf(tl[n].pid));
  }

  /** When the CPU idles, the process of the last segment has finished. */
  lemma IdleChain(input: seq<Process>, s: State)
    requires Agreeable(input, s) && !HasCandidate(s.jobs, EligibleAt(s.clock)) && s.timeline != []
    ensures forall k :: 0 <= k < |s.jobs| && s.jobs[k].proc.id == LastPid(s.timeline) ==> s.jobs[k].rem == 0
  {
    BusyForLast(s.timeline);
    forall k | 0 <= k < |s.jobs| && s.jobs[k].proc.id == LastPid(s.timeline)
      ensures s.jobs[k].rem == 0
    {
      assert JobOk(s.jobs[k], s.clock);
      assert !EligibleAt(s.clock)(s.jobs[k]);
    }
  }

  /** On a corrected state whose ids are distinct and non-empty, an
      iteration as written does what the corrected one does. */
  lemma TickAgrees(rule: Rule, input: seq<Process>, s: State)
    requires Agreeable(input, s) && s.completed < |s.jobs|
    ensures TickAsWritten(rule, RawOf(s)) == Ok(RawOf(Tick(rule, s)))
    ensures Chain(Tick(rule, s))
  {
    if HasCandidate(s.jobs, EligibleAt(s.clock)) {
      var k := Pick(s.jobs, EligibleAt(s.clock), Key(rule));
      assert input[k] in input;
      RunAgrees(rule, s);
      RunChain(rule, s);
    } else if s.timeline != [] {
      IdleChain(input, s);
    }
  }

  /** The unit is recorded alike: the source's id test and the corrected
      contiguity test choose the same branch. */
  lemma RunAgrees(rule: Rule, s: State)
    requires Chain(s) && HasCandidate(s.jobs, EligibleAt(s.clock))
    requires s.jobs[Pick(s.jobs, EligibleAt(s.clock), Key(rule))].proc.id != ""
    ensures TickAsWritten(rule, RawOf(s)) == Ok(RawOf(Tick(rule, s)))
  {
    var k := Pick(s.jobs, EligibleAt(s.clock), Key(rule));
    UnitAgrees(s, k);
    TickAsWrittenRuns(rule, RawOf(s), k);
    TickRuns(rule, s, k);
  }

  /** Job `k` runs for the unit at the clock, recorded by the corrected
      rule. */
  function Unit(s: State, k: nat): State
    requires k < |s.jobs|
  {
    var j := Run(s.jobs[k], s.clock, 1);
    State(s.jobs[k := j], s.completed + DoneFlag(j), s.clock + 1, Record(s.timeline, s.jobs[k].proc.id, s.clock))
  }

  /** Job `k` runs for the unit at the clock, recorded as written. */
  function RawUnit(s: RawState, k: nat): RawState
    requires k < |s.jobs| && (s.lastId == s.jobs[k].proc.id ==> s.timeline != [])
  {
    var id, j := s.jobs[k].proc.id, Run(s.jobs[k], s.clock, 1);
    RawState(s.jobs[k := j], s.completed + DoneFlag(j), s.clock + 1,
             if s.lastId != id then s.timeline + [Segment(id, s.clock, s.clock + 1)] else ExtendLast(s.timeline), id)
  }

  lemma TickRuns(rule: Rule, s: State, k: nat)
    requires HasCandidate(s.jobs, EligibleAt(s.clock)) && k == Pick(s.jobs, EligibleAt(s.clock), Key(rule))
    ensures Tick(rule, s) == Unit(s, k)
  {
  }

  /** An iteration as written that finds a process to run. */
  lemma TickAsWrittenRuns(rule: Rule, s: RawState, k: nat)
    requires HasCandidate(s.jobs, EligibleAt(s.clock)) && k == Pick(s.jobs, EligibleAt(s.clock), Key(rule))
    requires s.lastId == s.jobs[k].proc.id ==> s.timeline != []
    ensures TickAsWritten(rule, s) == Ok(RawUnit(s, k))
  {
  }

  /** Running job `k` for the unit: the corrected record, seen as written,
      is the one the source's id test builds. */
  lemma UnitAgrees(s: State, k: nat)
    requires Chain(s) && k < |s.jobs| && EligibleAt(s.clock)(s.jobs[k]) && s.jobs[k].proc.id != ""
    ensures LastPid(s.timeline) == s.jobs[k].proc.id ==> s.timeline != []
    ensures RawOf(Unit(s, k)) == RawUnit(RawOf(s), k)
  {
    LastIsCurrent(s, k);
    RecordAsWritten(s.timeline, s.jobs[k].proc.id, s.clock);
  }

  /** A process that can run is not finished, so if the last segment is
      its own, that segment ends now. */
  lemma LastIsCurrent(s: State, k: nat)
    requires Chain(s) && k < |s.jobs| && EligibleAt(s.clock)(s.jobs[k])
    requires s.jobs[k].proc.id != ""
    ensures s.jobs[k].proc.id != "" && (LastPid(s.timeline) == s.jobs[k].proc.id ==> End(s.timeline) == s.clock)
  {
  }

  /** After a unit of work the last segment ends at the new clock. */
  lemma RunChain(rule: Rule, s: State)
    requires Ordered(s.timeline) && EndsBy(s.timeline, s.clock)
    requires HasCandidate(s.jobs, EligibleAt(s.clock))
    ensures Chain(Tick(rule, s))
  {
    var k := Pick(s.jobs, EligibleAt(s.clock), Key(rule));
    RecordOk(s.timeline, s.jobs[k].proc.id, s.clock);
  }

  /** Where the last segment is the current process's only if it ends now,
      testing the id alone makes the same choice as `Record`. */
  lemma RecordAsWritten(tl: seq<Segment>, id: string, t: int)
    requires id != "" && (LastPid(tl) == id ==> End(tl) == t)
    ensures Record(tl, id, t) == if LastPid(tl) != id then tl + [Segment(id, t, t + 1)] else ExtendLast(tl)
    ensures LastPid(Record(tl, id, t)) == id
  {
  }

  lemma {:induction false} LoopAgrees(rule: Rule, input: seq<Process>, s: State)
    requires Agreeable(input, s)
    ensures Wf(Cook(RawOf(s)))
    ensures LoopAsWritten(rule, RawOf(s)) == Ok(RawOf(Loop(rule, s)))
    decreases Measure(s)
  {
    assert Cook(RawOf(s)) == s;
    if s.completed < |s.jobs| {
      TickProgress(rule, s);
      TickBase(rule, input, s);
      TickTime(rule, input, s);
      TickConserved(rule, input, s);
      TickAgrees(rule, input, s);
      LoopAgrees(rule, input, Tick(rule, s));
    }
  }

  /** With distinct, non-empty ids the source's bookkeeping gives exactly
      the corrected result. */
  lemma SimulateAgrees(rule: Rule, input: seq<Process>)
    requires PositiveBursts(input) && DistinctIds(input) && NamedIds(input)
    ensures SimulateAsWritten(rule, input) == Ok(Simulate(rule, input))
  {
    InitOk(input);
    assert Conserved(Init(input).jobs, []);
    assert RawOf(Init(input)) == RawState(Init(input).jobs, 0, 0, [], "");
    LoopAgrees(rule, input, Init(input));
  }

  // ----- the two inputs -----

  /** A single process whose id is empty, whatever its priority: the first
      unit it runs finds `lastProcessId` equal to its id and no segment to
      extend. The corrected loop records it as one segment. */
  lemma EmptyIdCrashes(rule: Rule, priority: Option<int>)
    ensures SimulateAsWritten(rule, [Process("", 0, 1, priority)]) == Err(EmptyGanttChart)
    ensures Simulate(rule, [Process("", 0, 1, priority)]).timeline == [Segment("", 0, 1)]
  {
    EmptyIdFirstUnit(rule, priority);
    EmptyIdCorrected(rule, priority);
  }

  lemma EmptyIdFirstUnit(rule: Rule, priority: Option<int>)
    ensures var start := RawState(Init([Process("", 0, 1, priority)]).jobs, 0, 0, [], "");
      TickAsWritten(rule, start) == Err(EmptyGanttChart)
  {
    var start := RawState(Init([Process("", 0, 1, priority)]).jobs, 0, 0, [], "");
    assert EligibleAt(0)(start.jobs[0]);
    assert Pick(start.jobs, EligibleAt(0), Key(rule)) == 0;
  }

  lemma EmptyIdCorrected(rule: Rule, priority: Option<int>)
    ensures Loop(rule, Init([Process("", 0, 1, priority)])).timeline == [Segment("", 0, 1)]
  {
    var p := Process("", 0, 1, priority);
    var s0 := Init([p]);
    assert s0 == State([Fresh(p)], 0, 0, []);
    EmptyIdTick(rule, priority);
    var s1 := State([Job(p, 0, Some(0), Some(1))], 1, 1, [Segment("", 0, 1)]);
    assert Sum(s1.jobs, DoneFlag) == 1 by { assert s1.jobs[1..] == []; }
    assert Loop(rule, s1) == s1;
  }

  /** The corrected loop's one unit on that input. */
  lemma EmptyIdTick(rule: Rule, priority: Option<int>)
    ensures var p := Process("", 0, 1, priority);
      Tick(rule, State([Fresh(p)], 0, 0, [])) == State([Job(p, 0, Some(0), Some(1))], 1, 1, [Segment("", 0, 1)])
  {
    var p := Process("", 0, 1, priority);
    var s0 := State([Fresh(p)], 0, 0, []);
    assert EligibleAt(0)(s0.jobs[0]);
    assert HasCandidate(s0.jobs, EligibleAt(0));
    assert Pick(s0.jobs, EligibleAt(0), Key(rule)) == 0;
    var j := Run(s0.jobs[0], 0, 1);
    assert j == Job(p, 0, Some(0), Some(1));
    assert DoneFlag(j) == 1;
    assert s0.jobs[0 := j] == [j];
    assert Record([], "", 0) == [Segment("", 0, 1)];
  }

  /** Two processes named "A", the second arriving after the first has
      finished and the CPU has idled: as written, the second's unit
      stretches the first's segment to `[0, 2)`, a time the CPU was idle
      for, and the chart no longer ends at `totalTime` (4). */
  lemma SharedIdStretches(rule: Rule)
    ensures var r := SimulateAsWritten(rule, SharedId());
      && r.Ok?
      && r.value.timeline == [Segment("A", 0, 2)]
      && r.value.totalTime == 4
  {
    var input := SharedId();
    assert Init(input).jobs == [Fresh(input[0]), Fresh(input[1])];
    SharedIdRun(rule, 0);
  }

  function SharedId(): seq<Process> {
    [Process("A", 0, 1, None), Process("A", 3, 1, None)]
  }

  /** The state after `n` units of the run on `SharedId()`, as written. */
  function SharedIdState(n: nat): RawState
    requires n <= 4
  {
    var a, b := SharedId()[0], SharedId()[1];
    if n == 0 then RawState([Fresh(a), Fresh(b)], 0, 0, [], "")
    else if n < 4 then RawState([Job(a, 0, Some(0), Some(1)), Fresh(b)], 1, n, [Segment("A", 0, 1)], "A")
    else RawState([Job(a, 0, Some(0), Some(1)), Job(b, 0, Some(3), Some(4))], 2, 4, [Segment("A", 0, 2)], "A")
  }

  lemma SharedIdFirst(rule: Rule)
    ensures TickAsWritten(rule, SharedIdState(0)) == Ok(SharedIdState(1))
  {
    var s, a := SharedIdState(0), SharedId()[0];
    assert EligibleAt(0)(s.jobs[0]) && !EligibleAt(0)(s.jobs[1]);
    var k := Pick(s.jobs, EligibleAt(0), Key(rule));
    assert k == 0;
    var j := Run(s.jobs[0], 0, 1);
    assert j == Job(a, 0, Some(0), Some(1)) && DoneFlag(j) == 1;
    assert s.jobs[0 := j] == SharedIdState(1).jobs;
    assert s.timeline + [Segment("A", 0, 1)] == SharedIdState(1).timeline;
    assert s.lastId != "A";
  }

  lemma SharedIdIdle(rule: Rule, n: nat)
    requires 1 <= n < 3
    ensures TickAsWritten(rule, SharedIdState(n)) == Ok(SharedIdState(n + 1))
  {
    var s := SharedIdState(n);
    assert !EligibleAt(n)(s.jobs[0]) && !EligibleAt(n)(s.jobs[1]);
    assert !HasCandidate(s.jobs, EligibleAt(n));
  }

  lemma SharedIdLast(rule: Rule)
    ensures TickAsWritten(rule, SharedIdState(3)) == Ok(SharedIdState(4))
  {
    var s, b := SharedIdState(3), SharedId()[1];
    assert !EligibleAt(3)(s.jobs[0]) && EligibleAt(3)(s.jobs[1]);
    var k := Pick(s.jobs, EligibleAt(3), Key(rule));
    assert k == 1;
    var j := Run(s.jobs[1], 3, 1);
    assert j == Job(b, 0, Some(3), Some(4)) && DoneFlag(j) == 1;
    assert s.jobs[1 := j] == SharedIdState(4).jobs;
    assert ExtendLast(s.timeline) == [Segment("A", 0, 2)];
  }

  lemma SharedIdWf(n: nat)
    requires n <= 4
    ensures Wf(Cook(SharedIdState(n)))
  {
    var js := SharedIdState(n).jobs;
    assert js[1..][1..] == [];
    assert Sum(js[1..][1..], DoneFlag) == 0;
    assert js[1..][0] == js[1];
    assert Sum(js, DoneFlag) == DoneFlag(js[0]) + DoneFlag(js[1]);
  }

  /** One unit of the loop as written, on `SharedId()`. */
  lemma SharedIdUnit(rule: Rule, n: nat)
    requires n < 4
    ensures Wf(Cook(SharedIdState(n))) && Wf(Cook(SharedIdState(n + 1)))
    ensures LoopAsWritten(rule, SharedIdState(n)) == LoopAsWritten(rule, SharedIdState(n + 1))
  {
    SharedIdWf(n);
    SharedIdWf(n + 1);
    if n == 0 {
      SharedIdFirst(rule);
    } else if n < 3 {
      SharedIdIdle(rule, n);
    } else {
      SharedIdLast(rule);
    }
  }

  lemma {:induction false} SharedIdRun(rule: Rule, n: nat)
    requires n <= 4
    ensures Wf(Cook(SharedIdState(n)))
    ensures LoopAsWritten(rule, SharedIdState(n)) == Ok(SharedIdState(4))
    decreases 4 - n
  {
    if n < 4 {
      SharedIdUnit(rule, n);
      SharedIdRun(rule, n + 1);
    } else {
      SharedIdDone(rule);
    }
  }

  lemma SharedIdDone(rule: Rule)
    ensures Wf(Cook(SharedIdState(4)))
    ensures LoopAsWritten(rule, SharedIdState(4)) == Ok(SharedIdState(4))
  {
    SharedIdWf(4);
  }
}

=== FILE: roundrobin.dfy ===
/** Round Robin (`roundRobin`, src/utils/schedulingAlgorithms.ts): the
    processes are stable-sorted by arrival and admitted to a FIFO ready
    queue as the clock passes their arrival; the head of the queue runs
    for at most one quantum and, unless it has completed, rejoins the back
    of the queue behind the processes that arrived meanwhile. */
module RoundRobin {
  import opened Wrappers
  import opened Model
  import opened Sorting
  import opened Metrics
  import opened Jobs

  function Min(a: int, b: int): int { if a < b then a else b }

  /** The indices `a, a + 1, ..., b - 1`. */
  function Range(a: nat, b: nat): (r: seq<nat>)
    requires a <= b
    ensures |r| == b - a
    ensures forall k :: 0 <= k < |r| ==> r[k] == a + k
  {
    seq(b - a, k requires 0 <= k < b - a => a + k)
  }

  predicate Distinct(q: seq<nat>) {
    forall a, b :: 0 <= a < b < |q| ==> q[a] != q[b]
  }

  /** The loop's variables: the jobs in stable arrival order, the ready
      queue as indices into them, `index` (the first job not yet admitted),
      how many jobs have completed, the clock and the Gantt chart. */
  datatype State = State(jobs: seq<Job>, queue: seq<nat>, next: nat, completed: int, clock: int, timeline: seq<Segment>)

  /** The admission loop: every job from `next` on that has arrived by the
      clock joins the back of the queue, in order, up to the first that has
      not. */
  function Admit(s: State): (r: State)
    requires s.next <= |s.jobs|
    ensures r.jobs == s.jobs && r.completed == s.completed && r.clock == s.clock && r.timeline == s.timeline
    ensures s.next <= r.next <= |s.jobs| && r.queue == s.queue + Range(s.next, r.next)
    ensures forall i :: s.next <= i < r.next ==> s.jobs[i].proc.arrival <= s.clock
    ensures r.next < |s.jobs| ==> s.jobs[r.next].proc.arrival > s.clock
    decreases |s.jobs| - s.next
  {
    if s.next < |s.jobs| && s.jobs[s.next].proc.arrival <= s.clock then
      var r := Admit(State(s.jobs, s.queue + [s.next], s.next + 1, s.completed, s.clock, s.timeline));
      assert [s.next] + Range(s.next + 1, r.next) == Range(s.next, r.next);
      r
    else
      assert Range(s.next, s.next) == [];
      s
  }

  /** An empty queue moves the clock to the next arrival. */
  function Jump(s: State): State
    requires s.next < |s.jobs|
  {
    State(s.jobs, s.queue, s.next, s.completed, s.jobs[s.next].proc.arrival, s.timeline)
  }

  /** The head of the queue runs for `Math.min(timeQuantum, remainingTime)`
      as one Gantt segment and leaves the queue. */
  function Take(s: State, quantum: int): (r: State)
    requires s.queue != [] && s.queue[0] < |s.jobs|
  {
    var i := s.queue[0];
    var d := Min(quantum, s.jobs[i].rem);
    State(s.jobs[i := Run(s.jobs[i], s.clock, d)], s.queue[1..], s.next, s.completed, s.clock + d,
          s.timeline + [Segment(s.jobs[i].proc.id, s.clock, s.clock + d)])
  }

  /** After the run, the jobs that arrived meanwhile are admitted, and then
      the job that ran either completes or rejoins the back of the queue. */
  function Dispatch(s: State, quantum: int): State
    requires s.queue != [] && s.queue[0] < |s.jobs| && s.next <= |s.jobs|
  {
    var i := s.queue[0];
    var a := Admit(Take(s, quantum));
    if a.jobs[i].rem == 0 then Finish(a) else Requeue(a, i)
  }

  function Finish(s: State): State {
    State(s.jobs, s.queue, s.next, s.completed + 1, s.clock, s.timeline)
  }

  function Requeue(s: State, i: nat): State {
    State(s.jobs, s.queue + [i], s.next, s.completed, s.clock, s.timeline)
  }

  // ----- the shape of the queue, which the loop's termination rests on -----

  /** 1 for a job whose `completionTime` is set. */
  function FinishedFlag(j: Job): int { if j.completion.Some? then 1 else 0 }

  lemma {:induction false} FinishedCount(js: seq<Job>)
    ensures 0 <= Sum(js, FinishedFlag) <= |js|
    ensures Sum(js, FinishedFlag) == |js| <==> forall k :: 0 <= k < |js| ==> js[k].completion.Some?
    ensures (forall k :: 0 <= k < |js| ==> js[k].completion.None?) ==> Sum(js, FinishedFlag) == 0
  {
    if js != [] {
      FinishedCount(js[1..]);
      assert forall k :: 1 <= k < |js| ==> js[k] == js[1..][k - 1];
    }
  }

  /** The queue holds distinct admitted jobs that have not completed; every
      admitted job that has not completed is queued, except perhaps the job
      `e` (the one on the CPU); no job from `next` on has completed. */
  predicate Partition(s: State, e: int) {
    && s.next <= |s.jobs|
    && (forall x :: x in s.queue ==> x < s.next && s.jobs[x].completion.None?)
    && Distinct(s.queue)
    && (forall i :: 0 <= i < s.next && s.jobs[i].completion.None? && i != e ==> i in s.queue)
    && (forall i :: s.next <= i < |s.jobs| ==> s.jobs[i].completion.None?)
  }

  /** What the loop keeps for its own sake: the partition of the jobs, a
      completed job has started, and `completed` counts the completed jobs. */
  predicate Wf(s: State) {
    && Partition(s, -1)
    && (forall i :: 0 <= i < |s.jobs| && s.jobs[i].completion.Some? ==> s.jobs[i].start.Some?)
    && s.completed == Sum(s.jobs, FinishedFlag)
  }

  lemma AdmitPartition(s: State, e: int)
    requires Partition(s, e)
    ensures Partition(Admit(s), e)
  {
    var r := Admit(s);
    var added := Range(s.next, r.next);
    forall x | x in r.queue
      ensures x < r.next && r.jobs[x].completion.None?
    {
      if x !in s.queue {
        assert x in added;
      }
    }
    forall a, b | 0 <= a < b < |r.queue|
      ensures r.queue[a] != r.queue[b]
    {
      if b >= |s.queue| && a < |s.queue| {
        assert s.queue[a] in s.queue;
      }
    }
    forall i | 0 <= i < r.next && r.jobs[i].completion.None? && i != e
      ensures i in r.queue
    {
      if i >= s.next {
        assert r.queue[|s.queue| + i - s.next] == i;
      }
    }
  }

  /** After admission, an empty queue means some job has not arrived yet
      (while not all have completed) and nothing was admitted. */
  lemma AdmitWf(s: State)
    requires Wf(s)
    ensures Wf(Admit(s))
    ensures Admit(s).queue == [] && s.completed < |s.jobs| ==>
      Admit(s).next < |s.jobs| && Admit(s).next == s.next && s.queue == []
  {
    AdmitPartition(s, -1);
    FinishedCount(s.jobs);
  }

  /** One pass of `while (completed.length < processes.length)`. */
  function Iterate(s: State, quantum: int): State
    requires Wf(s) && s.completed < |s.jobs|
  {
    AdmitWf(s);
    var a := Admit(s);
    if a.queue == [] then Jump(a)
    else
      assert a.queue[0] in a.queue;
      Dispatch(a, quantum)
  }

  /** What an unfinished job still weighs for termination. */
  function Weight(j: Job): int {
    if j.completion.Some? then 0 else (if j.rem > 0 then j.rem else 0) + 1
  }

  /** 1 when the next pass can only move the clock. */
  function Idle(s: State): int {
    if s.queue == [] && (s.next >= |s.jobs| || s.jobs[s.next].proc.arrival > s.clock) then 1 else 0
  }

  /** The job the next dispatch runs leaves the queue and the partition
      stays intact, with that job as the exception. */
  lemma TakePartition(s: State, quantum: int)
    requires Partition(s, -1) && s.queue != [] && s.queue[0] < |s.jobs|
    ensures s.queue[0] < s.next && s.queue[0] !in Take(s, quantum).queue
    ensures Partition(Take(s, quantum), s.queue[0])
  {
    var i := s.queue[0];
    assert i in s.queue;
    var m := Take(s, quantum);
    forall x | x in m.queue
      ensures x < m.next && m.jobs[x].completion.None?
    {
      var k :| 0 <= k < |m.queue| && m.queue[k] == x;
      assert s.queue[k + 1] == x && x != i && s.queue[k + 1] in s.queue;
    }
    forall k | 0 <= k < m.next && m.jobs[k].completion.None? && k != i
      ensures k in m.queue
    {
      var a :| 0 <= a < |s.queue| && s.queue[a] == k;
      assert a != 0 && m.queue[a - 1] == k;
    }
  }

  /** Admission only adds jobs from `next` on. */
  lemma AdmitKeepsOut(s: State, i: nat)
    requires s.next <= |s.jobs| && i < s.next && i !in s.queue
    ensures i !in Admit(s).queue
  {
    var r := Admit(s);
    forall k | 0 <= k < |r.queue|
      ensures r.queue[k] != i
    {
      if k < |s.queue| {
        assert r.queue[k] in s.queue;
      }
    }
  }

  /** The job that ran, unless it completed, rejoins the back of the queue
      and closes the partition again. */
  lemma RequeuePartition(a: State, i: nat)
    requires Partition(a, i) && i < a.next && a.jobs[i].completion.None? && i !in a.queue
    ensures Partition(State(a.jobs, a.queue + [i], a.next, a.completed, a.clock, a.timeline), -1)
  {
    var q := a.queue + [i];
    forall x | x in q
      ensures x < a.next && a.jobs[x].completion.None?
    {
      if x != i {
        assert x in a.queue;
      }
    }
    forall a1, b1 | 0 <= a1 < b1 < |q|
      ensures q[a1] != q[b1]
    {
      if b1 == |a.queue| {
        assert a.queue[a1] in a.queue;
      }
    }
  }

  /** The job the dispatch runs loses weight, and its flag counts it once
      it has completed. */
  lemma RunWeight(j: Job, quantum: int, t: int)
    requires quantum >= 1 && j.completion.None?
    ensures var r := Run(j, t, Min(quantum, j.rem));
      && 0 <= Weight(r) < Weight(j)
      && FinishedFlag(r) == FinishedFlag(j) + (if r.rem == 0 then 1 else 0)
      && r.start.Some? && r.proc == j.proc
      && (r.rem != 0 ==> r.completion.None?)
  {
  }

  lemma DispatchPartition(s: State, quantum: int)
    requires quantum >= 1 && Partition(s, -1) && s.queue != [] && s.queue[0] < |s.jobs|
    ensures Partition(Dispatch(s, quantum), -1)
  {
    var i := s.queue[0];
    var m := Take(s, quantum);
    TakePartition(s, quantum);
    AdmitPartition(m, i);
    var a := Admit(m);
    RunWeight(s.jobs[i], quantum, s.clock);
    if a.jobs[i].rem != 0 {
      AdmitKeepsOut(m, i);
      RequeuePartition(a, i);
    }
  }

  /** The job that ran has started and is counted once it has completed;
      its weight has dropped. */
  lemma DispatchCounts(s: State, quantum: int)
    requires quantum >= 1 && Wf(s) && s.queue != [] && s.queue[0] < |s.jobs|
    ensures var r := Dispatch(s, quantum);
      && (forall i :: 0 <= i < |r.jobs| && r.jobs[i].completion.Some? ==> r.jobs[i].start.Some?)
      && r.completed == Sum(r.jobs, FinishedFlag)
      && JobProcs(r.jobs) == JobProcs(s.jobs)
      && 0 <= Sum(r.jobs, Weight) < Sum(s.jobs, Weight)
  {
    var i := s.queue[0];
    assert i in s.queue;
    var d := Min(quantum, s.jobs[i].rem);
    var j := Run(s.jobs[i], s.clock, d);
    RunWeight(s.jobs[i], quantum, s.clock);
    assert Take(s, quantum).jobs == s.jobs[i := j];
    SumUpdate(s.jobs, i, j, FinishedFlag);
    SumUpdate(s.jobs, i, j, Weight);
    SumNonNegative(s.jobs[i := j], Weight);
  }

  /** A dispatch keeps the loop's shape and strictly lowers the total weight. */
  lemma DispatchWf(s: State, quantum: int)
    requires quantum >= 1 && Wf(s) && s.queue != []
    ensures s.queue[0] < |s.jobs|
    ensures Wf(Dispatch(s, quantum))
    ensures JobProcs(Dispatch(s, quantum).jobs) == JobProcs(s.jobs)
    ensures 0 <= Sum(Dispatch(s, quantum).jobs, Weight) < Sum(s.jobs, Weight)
  {
    assert s.queue[0] in s.queue;
    DispatchPartition(s, quantum);
    DispatchCounts(s, quantum);
  }

  /** A pass either lowers the total weight or, when it only moves the
      clock, makes the next pass a dispatch. */
  lemma IterateWf(s: State, quantum: int)
    requires quantum >= 1 && Wf(s) && s.completed < |s.jobs|
    ensures Wf(Iterate(s, quantum))
    ensures JobProcs(Iterate(s, quantum).jobs) == JobProcs(s.jobs)
    ensures 0 <= Sum(Iterate(s, quantum).jobs, Weight) < Sum(s.jobs, Weight)
      || (Sum(Iterate(s, quantum).jobs, Weight) == Sum(s.jobs, Weight) && Idle(Iterate(s, quantum)) < Idle(s))
  {
    AdmitWf(s);
    var a := Admit(s);
    if a.queue != [] {
      DispatchWf(a, quantum);
    }
  }

  function Loop(s: State, quantum: int): (r: State)
    requires quantum >= 1 && Wf(s)
    ensures Wf(r) && r.completed >= |r.jobs|
    ensures JobProcs(r.jobs) == JobProcs(s.jobs)
    decreases Sum(s.jobs, Weight), Idle(s)
  {
    if s.completed >= |s.jobs| then s
    else
      IterateWf(s, quantum);
      SumNonNegative(s.jobs, Weight);
      Loop(Iterate(s, quantum), quantum)
  }

  /** The deep copy, stable-sorted by arrival, with nothing admitted. */
  function Init(input: seq<Process>): (s: State)
    ensures Wf(s)
  {
    var js := FreshAll(SortBy(input, Arrival));
    FinishedCount(js);
    State(js, [], 0, 0, 0, [])
  }

  /** `roundRobin`: the processes come back in stable arrival order. A
      quantum below 1 makes the source loop forever. */
  function RoundRobin(input: seq<Process>, quantum: int): (r: Schedule)
    requires quantum >= 1
    ensures Procs(r.processes) == SortBy(input, Arrival)
  {
    var s := Loop(Init(input), quantum);
    FinishedCount(s.jobs);
    assert JobProcs(Init(input).jobs) == SortBy(input, Arrival);
    Report(ReportAll(s.jobs, s.clock), s.timeline, s.clock)
  }

  /** The front of the queue runs for `min(quantum, remaining)` as one
      segment from the clock; the jobs that arrived by the segment's end
      join the queue in order, and only then does the front rejoin the
      back, unless it completed. */
  lemma DispatchSteps(s: State, quantum: int)
    requires s.queue != [] && s.queue[0] < |s.jobs| && s.next <= |s.jobs|
    ensures var r := Dispatch(s, quantum);
      var i := s.queue[0];
      var d := Min(quantum, s.jobs[i].rem);
      && r.timeline == s.timeline + [Segment(s.jobs[i].proc.id, s.clock, s.clock + d)]
      && r.clock == s.clock + d
      && r.jobs[i].rem == s.jobs[i].rem - d
      && r.jobs[i].start == (if s.jobs[i].start.None? then Some(s.clock) else s.jobs[i].start)
      && r.jobs[i].completion == (if s.jobs[i].rem == d then Some(s.clock + d) else s.jobs[i].completion)
      && (forall k :: 0 <= k < |s.jobs| && k != i ==> r.jobs[k] == s.jobs[k])
      && s.next <= r.next <= |s.jobs|
      && r.queue == s.queue[1..] + Range(s.next, r.next) + (if r.jobs[i].rem == 0 then [] else [s.queue[0]])
      && (forall k :: s.next <= k < r.next ==> s.jobs[k].proc.arrival <= r.clock)
      && (r.next < |s.jobs| ==> s.jobs[r.next].proc.arrival > r.clock)
  {
    var m := Take(s, quantum);
    var a := Admit(m);
    assert m.jobs == s.jobs[s.queue[0] := m.jobs[s.queue[0]]];
  }

  /** One pass follows the source's queue discipline, for any input: with
      an empty queue after admission, an unadmitted job exists and the
      clock jumps forward to its arrival; otherwise the front is
      dispatched. */
  lemma IterateSteps(s: State, quantum: int)
    requires quantum >= 1 && Wf(s) && s.completed < |s.jobs|
    ensures var a := Admit(s);
      if a.queue == [] then
        && s.queue == [] && a.next == s.next < |s.jobs| && s.jobs[s.next].proc.arrival > s.clock
        && Iterate(s, quantum) == State(s.jobs, [], s.next, s.completed, s.jobs[s.next].proc.arrival, s.timeline)
      else
        a.queue[0] < |s.jobs| && Iterate(s, quantum) == Dispatch(a, quantum)
  {
    AdmitWf(s);
    var a := Admit(s);
    if a.queue != [] {
      assert a.queue[0] in a.queue;
    }
  }

  // ----- properties, for valid input -----

  /** Every admitted job arrived by the clock. */
  predicate Arrived(s: State) {
    forall i :: 0 <= i < s.next && i < |s.jobs| ==> s.jobs[i].proc.arrival <= s.clock
  }

  /** What the loop keeps for valid input: the jobs are the sorted
      processes, consistent with the clock, and every admitted one has
      arrived; the timeline is ordered, ends by the clock, accounts for the
      work done and ends exactly at the clock once every job has completed;
      no segment is longer than the quantum. */
  predicate Good(sorted: seq<Process>, quantum: int, s: State) {
    JobsGood(sorted, s) && TimelineGood(sorted, quantum, s)
  }

  predicate JobsGood(sorted: seq<Process>, s: State) {
    && JobProcs(s.jobs) == sorted
    && AllOk(s.jobs, s.clock) && s.clock >= 0
    && Arrived(s)
  }

  predicate TimelineGood(sorted: seq<Process>, quantum: int, s: State) {
    && Ordered(s.timeline) && EndsBy(s.timeline, s.clock)
    && Busy(s.timeline) + TotalRem(s.jobs) == TotalBurst(sorted)
    && (s.completed < |s.jobs| || End(s.timeline) == s.clock)
    && (forall k :: 0 <= k < |s.timeline| ==> Length(s.timeline[k]) <= quantum)
  }

  lemma InitGood(input: seq<Process>, quantum: int)
    requires PositiveBursts(input) && quantum >= 1
    ensures Good(SortBy(input, Arrival), quantum, Init(input))
  {
    var sorted := SortBy(input, Arrival);
    PositivePermutation(input, sorted);
    var js := FreshAll(sorted);
    assert Init(input) == State(js, [], 0, 0, 0, []);
    forall k | 0 <= k < |js|
      ensures JobOk(js[k], 0)
    {
      assert PositiveBurst(sorted[k]) by { assert sorted[k] in sorted; }
    }
    assert JobProcs(js) == sorted;
    assert Busy([]) == 0;
    FreshRem(sorted);
  }

  /** The job at the head of the queue runs: the state stays good, and the
      timeline now ends exactly at the clock. */
  lemma TakeGood(sorted: seq<Process>, quantum: int, s: State)
    requires quantum >= 1 && Good(sorted, quantum, s)
    requires s.queue != [] && s.queue[0] < s.next <= |s.jobs| && s.jobs[s.queue[0]].completion.None?
    ensures Good(sorted, quantum, Take(s, quantum)) && End(Take(s, quantum).timeline) == Take(s, quantum).clock
  {
    var i := s.queue[0];
    var d := Min(quantum, s.jobs[i].rem);
    assert JobOk(s.jobs[i], s.clock);
    RunAllOk(s.jobs, i, s.clock, d);
    var r := Take(s, quantum);
    assert r.jobs == s.jobs[i := Run(s.jobs[i], s.clock, d)] && r.clock == s.clock + d;
    assert JobsGood(sorted, r);
    TakeTimeline(sorted, quantum, s, d);
  }

  lemma TakeTimeline(sorted: seq<Process>, quantum: int, s: State, d: int)
    requires quantum >= 1 && TimelineGood(sorted, quantum, s)
    requires s.queue != [] && s.queue[0] < |s.jobs| && d == Min(quantum, s.jobs[s.queue[0]].rem) >= 1
    requires TotalRem(Take(s, quantum).jobs) == TotalRem(s.jobs) - d
    ensures TimelineGood(sorted, quantum, Take(s, quantum)) && End(Take(s, quantum).timeline) == Take(s, quantum).clock
  {
    var g := Segment(s.jobs[s.queue[0]].proc.id, s.clock, s.clock + d);
    Push(s.timeline, g, s.clock);
    assert Take(s, quantum).timeline == s.timeline + [g];
  }

  lemma DispatchGood(sorted: seq<Process>, quantum: int, s: State)
    requires quantum >= 1 && Good(sorted, quantum, s) && Wf(s) && s.queue != []
    ensures s.queue[0] < |s.jobs|
    ensures Good(sorted, quantum, Dispatch(s, quantum))
  {
    assert s.queue[0] in s.queue;
    TakeGood(sorted, quantum, s);
  }

  lemma IterateGood(sorted: seq<Process>, quantum: int, s: State)
    requires quantum >= 1 && Good(sorted, quantum, s) && Wf(s) && s.completed < |s.jobs|
    ensures Good(sorted, quantum, Iterate(s, quantum))
  {
    AdmitWf(s);
    var a := Admit(s);
    if a.queue != [] {
      DispatchGood(sorted, quantum, a);
    } else {
      LaterOk(a.jobs, a.clock, a.jobs[a.next].proc.arrival);
    }
  }

  lemma {:induction false} LoopGood(sorted: seq<Process>, quantum: int, s: State)
    requires quantum >= 1 && Good(sorted, quantum, s) && Wf(s)
    ensures Good(sorted, quantum, Loop(s, quantum))
    decreases Sum(s.jobs, Weight), Idle(s)
  {
    if s.completed < |s.jobs| {
      IterateWf(s, quantum);
      SumNonNegative(s.jobs, Weight);
      IterateGood(sorted, quantum, s);
      LoopGood(sorted, quantum, Iterate(s, quantum));
    }
  }

  /** At the end every job has completed, consistently with the clock. */
  lemma Final(input: seq<Process>, quantum: int)
    requires PositiveBursts(input) && quantum >= 1
    ensures var s := Loop(Init(input), quantum);
      && Good(SortBy(input, Arrival), quantum, s)
      && forall k :: 0 <= k < |s.jobs| ==> s.jobs[k].rem == 0
  {
    InitGood(input, quantum);
    LoopGood(SortBy(input, Arrival), quantum, Init(input));
    var s := Loop(Init(input), quantum);
    FinishedCount(s.jobs);
  }

  /** Every process is reported once, soundly; the timeline is ordered,
      holds exactly the CPU time the processes need, ends at `totalTime`,
      and no process holds the CPU longer than one quantum at a time. */
  lemma RoundRobinAccounts(input: seq<Process>, quantum: int)
    requires PositiveBursts(input) && quantum >= 1
    ensures Accounts(input, RoundRobin(input, quantum))
    ensures forall k :: 0 <= k < |RoundRobin(input, quantum).timeline| ==> Length(RoundRobin(input, quantum).timeline[k]) <= quantum
  {
    Final(input, quantum);
    var s := Loop(Init(input), quantum);
    SumZero(s.jobs);
    SumPermutation(SortBy(input, Arrival), input, Burst);
  }

  /** When ids are distinct, a run adds its length to the share of the
      job that ran and leaves every other job's share as it was. */
  lemma TakeConserved(sorted: seq<Process>, quantum: int, s: State)
    requires quantum >= 1 && Good(sorted, quantum, s) && DistinctIds(sorted) && Conserved(s.jobs, s.timeline)
    requires s.queue != [] && s.queue[0] < s.next <= |s.jobs| && s.jobs[s.queue[0]].completion.None?
    ensures Conserved(Take(s, quantum).jobs, Take(s, quantum).timeline)
  {
    var i := s.queue[0];
    var d := Min(quantum, s.jobs[i].rem);
    assert JobOk(s.jobs[i], s.clock);
    var id := s.jobs[i].proc.id;
    var g := Segment(id, s.clock, s.clock + d);
    Push(s.timeline, g, s.clock);
    var r := Take(s, quantum);
    assert r.timeline == s.timeline + [g];
    forall k | 0 <= k < |r.jobs| && k != i
      ensures r.jobs[k].proc.id != id
    {
      assert sorted[k] == s.jobs[k].proc && sorted[i] == s.jobs[i].proc;
    }
  }

  lemma IterateConserved(sorted: seq<Process>, quantum: int, s: State)
    requires quantum >= 1 && Good(sorted, quantum, s) && Wf(s) && s.completed < |s.jobs|
    requires DistinctIds(sorted) && Conserved(s.jobs, s.timeline)
    ensures Conserved(Iterate(s, quantum).jobs, Iterate(s, quantum).timeline)
  {
    AdmitWf(s);
    var a := Admit(s);
    if a.queue != [] {
      assert a.queue[0] in a.queue;
      TakeConserved(sorted, quantum, a);
    }
  }

  lemma {:induction false} LoopConserved(sorted: seq<Process>, quantum: int, s: State)
    requires quantum >= 1 && Good(sorted, quantum, s) && Wf(s)
    requires DistinctIds(sorted) && Conserved(s.jobs, s.timeline)
    ensures Conserved(Loop(s, quantum).jobs, Loop(s, quantum).timeline)
    decreases Sum(s.jobs, Weight), Idle(s)
  {
    if s.completed < |s.jobs| {
      IterateWf(s, quantum);
      SumNonNegative(s.jobs, Weight);
      IterateGood(sorted, quantum, s);
      IterateConserved(sorted, quantum, s);
      LoopConserved(sorted, quantum, Iterate(s, quantum));
    }
  }

  lemma FinalConserved(input: seq<Process>, quantum: int)
    requires PositiveBursts(input) && DistinctIds(input) && quantum >= 1
    ensures var s := Loop(Init(input), quantum);
      && Conserved(s.jobs, s.timeline)
      && JobProcs(s.jobs) == SortBy(input, Arrival)
      && forall k :: 0 <= k < |s.jobs| ==> s.jobs[k].rem == 0
  {
    var sorted := SortBy(input, Arrival);
    DistinctPermutation(input, sorted);
    InitGood(input, quantum);
    assert Conserved(Init(input).jobs, []);
    LoopConserved(sorted, quantum, Init(input));
    Final(input, quantum);
  }

  /** With distinct ids, the Gantt chart gives every process exactly its
      burst, however many turns it took. */
  lemma RoundRobinConserved(input: seq<Process>, quantum: int)
    requires PositiveBursts(input) && DistinctIds(input) && quantum >= 1
    ensures var r := RoundRobin(input, quantum);
      forall i :: 0 <= i < |input| ==> BusyFor(r.timeline, input[i].id) == input[i].burst
  {
    var sorted := SortBy(input, Arrival);
    FinalConserved(input, quantum);
    var s := Loop(Init(input), quantum);
    assert RoundRobin(input, quantum).timeline == s.timeline;
    forall i | 0 <= i < |input|
      ensures BusyFor(s.timeline, input[i].id) == input[i].burst
    {
      assert input[i] in multiset(sorted);
      var k :| 0 <= k < |sorted| && sorted[k] == input[i];
      assert s.jobs[k].proc == sorted[k];
    }
  }

  // ----- start and completion times, for distinct ids -----

  /** With distinct ids, a run keeps every job's `startTime` and
      `completionTime` equal to its process's first and last moments on the
      chart. */
  lemma TakeCharted(s: State, quantum: int)
    requires s.queue != [] && s.queue[0] < |s.jobs| && s.jobs[s.queue[0]].completion.None?
    requires DistinctIds(JobProcs(s.jobs)) && Charted(s.jobs, s.timeline)
    ensures Charted(Take(s, quantum).jobs, Take(s, quantum).timeline)
  {
    var i := s.queue[0];
    var d := Min(quantum, s.jobs[i].rem);
    var g := Segment(s.jobs[i].proc.id, s.clock, s.clock + d);
    SpansAppend(s.timeline, g);
    RunCharted(s.jobs, i, s.clock, d, s.timeline, s.timeline + [g]);
  }

  lemma IterateCharted(s: State, quantum: int)
    requires quantum >= 1 && Wf(s) && s.completed < |s.jobs|
    requires DistinctIds(JobProcs(s.jobs)) && Charted(s.jobs, s.timeline)
    ensures Charted(Iterate(s, quantum).jobs, Iterate(s, quantum).timeline)
  {
    AdmitWf(s);
    var a := Admit(s);
    if a.queue != [] {
      assert a.queue[0] in a.queue;
      TakeCharted(a, quantum);
    }
  }

  lemma {:induction false} LoopCharted(s: State, quantum: int)
    requires quantum >= 1 && Wf(s)
    requires DistinctIds(JobProcs(s.jobs)) && Charted(s.jobs, s.timeline)
    ensures Charted(Loop(s, quantum).jobs, Loop(s, quantum).timeline)
    decreases Sum(s.jobs, Weight), Idle(s)
  {
    if s.completed < |s.jobs| {
      IterateWf(s, quantum);
      SumNonNegative(s.jobs, Weight);
      IterateCharted(s, quantum);
      LoopCharted(Iterate(s, quantum), quantum);
    }
  }

  /** At the end every job has started and completed, in agreement with
      the chart. */
  lemma FinalCharted(input: seq<Process>, quantum: int)
    requires PositiveBursts(input) && DistinctIds(input) && quantum >= 1
    ensures var s := Loop(Init(input), quantum);
      && Charted(s.jobs, s.timeline)
      && forall k :: 0 <= k < |s.jobs| ==> s.jobs[k].start.Some? && s.jobs[k].completion.Some?
  {
    var sorted := SortBy(input, Arrival);
    DistinctPermutation(input, sorted);
    FreshCharted(sorted);
    assert JobProcs(Init(input).jobs) == sorted;
    LoopCharted(Init(input), quantum);
    Final(input, quantum);
    var s := Loop(Init(input), quantum);
    assert forall k :: 0 <= k < |s.jobs| ==> JobOk(s.jobs[k], s.clock);
  }

  /** With distinct ids, every reported `startTime` is the start of the
      process's first Gantt segment and every `completionTime` the end of
      its last one, however many turns it took. */
  lemma RoundRobinTraced(input: seq<Process>, quantum: int)
    requires PositiveBursts(input) && DistinctIds(input) && quantum >= 1
    ensures Traced(RoundRobin(input, quantum).processes, RoundRobin(input, quantum).timeline)
  {
    FinalCharted(input, quantum);
    var s := Loop(Init(input), quantum);
    assert RoundRobin(input, quantum).processes == ReportAll(s.jobs, s.clock);
    ReportTraced(s.jobs, s.clock, s.timeline);
  }
}

=== FILE: rr_as_fcfs.dfy ===
/** Round Robin with a quantum at least as long as every burst never
    preempts anyone: it produces exactly the FCFS schedule, processes,
    chart, averages and total time alike. */
module RoundRobinAsFcfs {
  import opened Wrappers
  import opened Model
  import opened Sorting
  import opened Jobs
  import opened Metrics
  import F = Fcfs
  import RR = RoundRobin
  import opened RoundRobin

  /** Every burst fits in one quantum. */
  predicate Long(ps: seq<Process>, quantum: int) {
    forall i :: 0 <= i < |ps| ==> ps[i].burst <= quantum
  }

  /** The Round Robin state `s` has done what FCFS did in `t`: the first
      `|t.done|` processes completed with FCFS's records and chart, the
      queue holds the admitted rest in order, and the clock is FCFS's, or
      already at the arrival of the next process after an idle jump. */
  predicate Sim(ps: seq<Process>, s: State, t: Trace) {
    var k := |t.done|;
    && |s.jobs| == |ps| && s.completed == k
    && k <= s.next <= |ps| && s.queue == Range(k, s.next)
    && (forall i :: 0 <= i < |ps| ==> s.jobs[i].proc == ps[i])
    && (forall i :: 0 <= i < k ==>
          s.jobs[i].start.Some? && s.jobs[i].completion.Some? && ToFinished(s.jobs[i]) == t.done[i])
    && (forall i :: k <= i < |ps| ==> s.jobs[i] == Fresh(ps[i]))
    && s.timeline == t.timeline
    && (forall i :: 0 <= i < s.next ==> ps[i].arrival <= s.clock)
    && (s.clock == t.clock || (k < |ps| && s.clock == ps[k].arrival > t.clock))
  }

  lemma InitSim(input: seq<Process>)
    ensures Sim(SortBy(input, Arrival), Init(input), F.Start())
  {
    assert Range(0, 0) == [];
  }

  lemma AdmitSim(ps: seq<Process>, s: State, t: Trace)
    requires Sim(ps, s, t)
    ensures Sim(ps, Admit(s), t)
  {
    var r := Admit(s);
    assert Range(|t.done|, s.next) + Range(s.next, r.next) == Range(|t.done|, r.next);
  }

  lemma JumpSim(ps: seq<Process>, s: State, t: Trace)
    requires Sim(ps, s, t) && s.queue == [] && s.next < |ps| && ps[s.next].arrival > s.clock
    ensures Sim(ps, Jump(s), t)
  {
  }

  /** The front of the queue is the next process in arrival order, and it
      runs its whole burst in one go. */
  lemma TakeSim(ps: seq<Process>, quantum: int, s: State, t: Trace)
    requires PositiveBursts(ps) && Long(ps, quantum) && Sim(ps, s, t) && s.queue != []
    ensures |t.done| < |ps| && s.queue[0] == |t.done|
    ensures var k, c := |t.done|, s.clock;
      Take(s, quantum) == State(s.jobs[k := Job(ps[k], 0, Some(c), Some(c + ps[k].burst))],
                                Range(k + 1, s.next), s.next, s.completed, c + ps[k].burst,
                                s.timeline + [Segment(ps[k].id, c, c + ps[k].burst)])
    ensures forall i :: 0 <= i < s.next ==> ps[i].arrival <= Take(s, quantum).clock
  {
    var p := ps[|t.done|];
    assert PositiveBurst(p) by { assert p in ps; }
    assert s.queue[1..] == Range(|t.done| + 1, s.next);
  }

  /** A dispatch runs the next process in arrival order to completion,
      exactly as FCFS's next step does. */
  lemma DispatchSim(ps: seq<Process>, quantum: int, s: State, t: Trace)
    requires PositiveBursts(ps) && Long(ps, quantum) && Sim(ps, s, t) && s.queue != []
    ensures |t.done| < |ps| && s.queue[0] == |t.done|
    ensures Sim(ps, Dispatch(s, quantum), F.Step(ps[|t.done|], t))
  {
    TakeSim(ps, quantum, s, t);
    var k := |t.done|;
    var p := ps[k];
    var c := s.clock;
    var a := Admit(Take(s, quantum));
    assert Range(k + 1, s.next) + Range(s.next, a.next) == Range(k + 1, a.next);
    assert F.Step(p, t).done == t.done + [Complete(p, c, c + p.burst)];
    assert Dispatch(s, quantum) == Finish(a);
  }

  /** What FCFS has done once Round Robin has run one more round: nothing
      more after an idle jump, its next step after a dispatch. */
  function Next(ps: seq<Process>, s: State, t: Trace): Trace
    requires |t.done| < |ps| && s.next <= |s.jobs|
  {
    if Admit(s).queue == [] then t else F.Step(ps[|t.done|], t)
  }

  /** One round of the loop keeps the two in step, and FCFS's remaining
      work is the same from either of its states. */
  lemma IterateSim(ps: seq<Process>, quantum: int, s: State, t: Trace)
    requires PositiveBursts(ps) && quantum >= 1 && Long(ps, quantum) && Wf(s) && Sim(ps, s, t)
    requires s.completed < |s.jobs|
    ensures |t.done| < |ps|
    ensures Sim(ps, Iterate(s, quantum), Next(ps, s, t))
    ensures F.Serve(ps, Next(ps, s, t)) == F.Serve(ps, t)
  {
    IterateSteps(s, quantum);
    AdmitSim(ps, s, t);
    var a := Admit(s);
    if a.queue == [] {
      JumpSim(ps, a, t);
    } else {
      DispatchSim(ps, quantum, a, t);
    }
  }

  lemma {:induction false} LoopSim(ps: seq<Process>, quantum: int, s: State, t: Trace)
    requires PositiveBursts(ps) && quantum >= 1 && Long(ps, quantum) && Wf(s) && Sim(ps, s, t)
    ensures Sim(ps, Loop(s, quantum), F.Serve(ps, t))
    decreases Sum(s.jobs, Weight), Idle(s)
  {
    if s.completed < |s.jobs| {
      IterateWf(s, quantum);
      SumNonNegative(s.jobs, Weight);
      IterateSim(ps, quantum, s, t);
      LoopSim(ps, quantum, Iterate(s, quantum), Next(ps, s, t));
    }
  }

  /** With a quantum no shorter than any burst, Round Robin is FCFS. */
  lemma RoundRobinIsFcfs(input: seq<Process>, quantum: int)
    requires PositiveBursts(input) && quantum >= 1
    requires forall p :: p in input ==> p.burst <= quantum
    ensures RR.RoundRobin(input, quantum) == F.Fcfs(input)
  {
    var ps := SortBy(input, Arrival);
    SortedLong(input, quantum);
    InitSim(input);
    LoopSim(ps, quantum, Init(input), F.Start());
    FinalSim(ps, Loop(Init(input), quantum), F.Serve(ps, F.Start()));
  }

  lemma SortedLong(input: seq<Process>, quantum: int)
    requires PositiveBursts(input)
    requires forall p :: p in input ==> p.burst <= quantum
    ensures PositiveBursts(SortBy(input, Arrival)) && Long(SortBy(input, Arrival), quantum)
  {
    var ps := SortBy(input, Arrival);
    PositivePermutation(input, ps);
    forall i | 0 <= i < |ps|
      ensures ps[i].burst <= quantum
    {
      assert ps[i] in multiset(input);
    }
  }

  /** Once every process is done, both report the same schedule. */
  lemma FinalSim(ps: seq<Process>, s: State, t: Trace)
    requires Sim(ps, s, t) && s.completed >= |s.jobs|
    ensures Report(ReportAll(s.jobs, s.clock), s.timeline, s.clock) == Report(t.done, t.timeline, t.clock)
  {
    assert ReportAll(s.jobs, s.clock) == t.done;
  }
}

=== FILE: selection.dfy ===
/** How SJF, SRTF and both Priority variants choose the next process:
    `available = list.filter(ok)`, `available.sort(by key)`, take
    `available[0]`. `Pick` finds the same element as an index into the
    unfiltered list: the first candidate holding the least key. Because the
    sort is stable, a tie goes to the earliest candidate in list order;
    there is no other tie-break. */
module Selection {
  import opened Sorting

  function Filter<T>(s: seq<T>, ok: T -> bool): (r: seq<T>) {
    if s == [] then []
    else (if ok(s[0]) then [s[0]] else []) + Filter(s[1..], ok)
  }

  predicate HasCandidate<T>(s: seq<T>, ok: T -> bool) {
    exists i :: 0 <= i < |s| && ok(s[i])
  }

  lemma {:induction false} FilterEmpty<T>(s: seq<T>, ok: T -> bool)
    ensures Filter(s, ok) == [] <==> !HasCandidate(s, ok)
  {
    if s != [] {
      FilterEmpty(s[1..], ok);
      if HasCandidate(s[1..], ok) {
        var i :| 0 <= i < |s[1..]| && ok(s[1..][i]);
        assert ok(s[i + 1]);
      }
      if HasCandidate(s, ok) && !ok(s[0]) {
        var i :| 0 <= i < |s| && ok(s[i]);
        assert ok(s[1..][i - 1]);
      }
    }
  }

  /** Index of the first candidate of `s` with the least key. */
  function Pick<T>(s: seq<T>, ok: T -> bool, key: T -> int): (i: nat)
    requires HasCandidate(s, ok)
    ensures i < |s| && ok(s[i])
    ensures forall j :: 0 <= j < |s| && ok(s[j]) ==> key(s[i]) <= key(s[j])
    ensures forall j :: 0 <= j < i && ok(s[j]) ==> key(s[i]) < key(s[j])
    decreases |s|
  {
    if !ok(s[0]) then
      assert HasCandidate(s[1..], ok) by {
        var i :| 0 <= i < |s| && ok(s[i]);
        assert ok(s[1..][i - 1]);
      }
      1 + Pick(s[1..], ok, key)
    else if !HasCandidate(s[1..], ok) then
      assert forall j :: 0 < j < |s| ==> s[j] == s[1..][j - 1];
      0
    else
      var b := 1 + Pick(s[1..], ok, key);
      if key(s[b]) < key(s[0]) then b else 0
  }

  /** `Pick` is what the source computes: the head of the stably sorted
      list of candidates. */
  lemma {:induction false} PickIsSortHead<T>(s: seq<T>, ok: T -> bool, key: T -> int)
    requires HasCandidate(s, ok)
    ensures |Filter(s, ok)| > 0
    ensures s[Pick(s, ok, key)] == SortBy(Filter(s, ok), key)[0]
  {
    FilterEmpty(s, ok);
    var rest := s[1..];
    if !ok(s[0]) {
      assert HasCandidate(rest, ok) by {
        var i :| 0 <= i < |s| && ok(s[i]);
        assert ok(rest[i - 1]);
      }
      PickIsSortHead(rest, ok, key);
      assert Filter(s, ok) == Filter(rest, ok);
      var b := Pick(rest, ok, key);
      assert Pick(s, ok, key) == 1 + b;
      assert s[1 + b] == rest[b];
    } else if !HasCandidate(rest, ok) {
      FilterEmpty(rest, ok);
      assert Filter(s, ok) == [s[0]];
    } else {
      PickIsSortHead(rest, ok, key);
      var f := Filter(rest, ok);
      assert Filter(s, ok) == [s[0]] + f;
      SortedHead(s[0], f, key);
      var b := Pick(rest, ok, key);
      assert s[1 + b] == rest[b];
    }
  }

  /** Sorting stably puts a new first element in front unless the least
      key of the rest is strictly smaller. */
  lemma SortedHead<T>(x: T, f: seq<T>, key: T -> int)
    requires |f| > 0
    ensures var h := SortBy(f, key)[0];
      SortBy([x] + f, key)[0] == if key(h) < key(x) then h else x
  {
    assert ([x] + f)[0] == x && ([x] + f)[1..] == f;
  }
}

=== FILE: sorting.dfy ===
/** The engine's `Array.prototype.sort` calls with a one-key comparator
    (`(a, b) => key(a) - key(b)`). The sort is stable, so elements with
    equal keys keep their relative order. `SortBy` is an insertion sort that
    inserts each element in front of the first element whose key is not
    smaller; the lemmas below show it is a permutation, sorted and stable. */
module Sorting {

  predicate SortedBy<T>(s: seq<T>, key: T -> int) {
    forall i, j :: 0 <= i < j < |s| ==> key(s[i]) <= key(s[j])
  }

  /** The elements of `s` whose key is `k`, in their order in `s`. */
  function WithKey<T>(s: seq<T>, key: T -> int, k: int): seq<T> {
    if s == [] then []
    else (if key(s[0]) == k then [s[0]] else []) + WithKey(s[1..], key, k)
  }

  function Insert<T(==)>(x: T, s: seq<T>, key: T -> int): (r: seq<T>)
    ensures multiset(r) == multiset(s) + multiset{x}
    ensures |r| == |s| + 1
  {
    if s == [] || key(x) <= key(s[0]) then [x] + s
    else
      assert s == [s[0]] + s[1..];
      [s[0]] + Insert(x, s[1..], key)
  }

  lemma {:induction false} InsertSorted<T>(x: T, s: seq<T>, key: T -> int)
    requires SortedBy(s, key)
    ensures SortedBy(Insert(x, s, key), key)
  {
    if s == [] || key(x) <= key(s[0]) {
    } else {
      var tail := Insert(x, s[1..], key);
      InsertSorted(x, s[1..], key);
      var r := [s[0]] + tail;
      assert Insert(x, s, key) == r;
      forall j | 0 < j < |r|
        ensures key(r[0]) <= key(r[j])
      {
        assert r[j] == tail[j - 1];
        assert r[j] in multiset(s[1..]) + multiset{x};
        if r[j] in multiset(s[1..]) {
          var m :| 0 <= m < |s[1..]| && s[1..][m] == r[j];
          assert s[m + 1] == r[j];
        }
      }
    }
  }

  /** The sorted permutation of `s` that keeps equal keys in input order. */
  function SortBy<T(==)>(s: seq<T>, key: T -> int): (r: seq<T>)
    ensures multiset(r) == multiset(s)
    ensures |r| == |s|
    ensures SortedBy(r, key)
  {
    if s == [] then []
    else
      assert s == [s[0]] + s[1..];
      var rest := SortBy(s[1..], key);
      InsertSorted(s[0], rest, key);
      Insert(s[0], rest, key)
  }

  lemma {:induction false} InsertWithKey<T>(x: T, s: seq<T>, key: T -> int, k: int)
    ensures WithKey(Insert(x, s, key), key, k) == WithKey([x] + s, key, k)
  {
    if s != [] && key(s[0]) < key(x) {
      var tail := Insert(x, s[1..], key);
      var w := WithKey(s[1..], key, k);
      var fx := if key(x) == k then [x] else [];
      var f0 := if key(s[0]) == k then [s[0]] else [];
      InsertWithKey(x, s[1..], key, k);
      WithKeyCons(x, s[1..], key, k);
      assert WithKey(tail, key, k) == fx + w;
      WithKeyCons(s[0], tail, key, k);
      assert WithKey(Insert(x, s, key), key, k) == f0 + (fx + w);
      assert WithKey(s, key, k) == f0 + w;
      WithKeyCons(x, s, key, k);
      assert WithKey([x] + s, key, k) == fx + (f0 + w);
      Swap(f0, fx, w);
    }
  }

  /** Two prefixes commute when one of them is empty. */
  lemma Swap<T>(a: seq<T>, b: seq<T>, w: seq<T>)
    requires a == [] || b == []
    ensures a + (b + w) == b + (a + w)
  {
    if a == [] {
      assert a + (b + w) == b + w;
    } else {
      assert b + (a + w) == a + w;
    }
  }

  lemma WithKeyCons<T>(x: T, s: seq<T>, key: T -> int, k: int)
    ensures WithKey([x] + s, key, k) == (if key(x) == k then [x] else []) + WithKey(s, key, k)
  {
    assert ([x] + s)[0] == x && ([x] + s)[1..] == s;
  }

  /** Stability: for every key, the elements carrying it appear in the
      sorted result in the same order as in the input. */
  lemma {:induction false} SortByStable<T>(s: seq<T>, key: T -> int, k: int)
    ensures WithKey(SortBy(s, key), key, k) == WithKey(s, key, k)
  {
    if s != [] {
      SortByStable(s[1..], key, k);
      InsertWithKey(s[0], SortBy(s[1..], key), key, k);
      assert s == [s[0]] + s[1..];
    }
  }
}

=== FILE: wrappers.dfy ===
/** Optional values and results, standing in for TypeScript's optional
    fields (`undefined`) and for the input form's rejected submissions. */
module Wrappers {

  /** `None` is an absent (undefined) value. */
  datatype Option<+T> = None | Some(value: T) {

    /** The value, or `default` when absent. */
    function GetOr(default: T): T {
      match this
      case Some(v) => v
      case None => default
    }
  }

  /** Either an accepted value or the reason it was refused. */
  datatype Result<+T, +E> = Ok(value: T) | Err(error: E)
}
